=== FILE: README.md ===
# Market settlement and managrams, modelled in Dafny

This project models two ledger-facing parts of a prediction-market
backend:

- **Market resolution.** `resolveMarketHelper` decides what a resolution
  writes:
  - it clamps the close time;
  - it applies the multiple-choice rule, which resolves the whole market as
    `MKT` only once every other answer is resolved;
  - it mirrors the resolved answer into the market's `answers` list;
  - it chooses the answer's final probability;
  - it refuses a non-admin `CANCEL` that would leave some user with a large
    negative payout.

  `getDataAndPayoutInfo` assembles the payout list: the creator, then
  liquidity providers, then traders, then loans. `payUsersTransactions`
  merges that list by user and cuts it into chunks of 250. For each chunk it
  writes one `CONTRACT_RESOLUTION_PAYOUT` record per user and increments each
  user's `balance` and `totalDeposits`. A failing chunk is skipped.
  `undoUniqueBettorRewardsIfCancelResolution` writes one
  `CANCEL_UNIQUE_BETTOR_BONUS` record. It moves the market's bettor bonuses
  back from the creator to the house.
- **Managrams.** `sendMana` runs an ordered chain of guards, then writes one
  `MANA_PAYMENT` record per recipient, all sharing one group id. The rule
  `canSendMana` / `canSendManaSupa` decides who may send: the account must
  be old enough or a bot, and must be rich, profitable, invested or popular
  enough.

Modules:

| file | module | contents |
|---|---|---|
| common.dfy | `Common` | `Option`, `Result` |
| ledger.dfy | `Ledger` | the transaction record and the `Ledger` class (user accounts plus the append-only record log) |
| payouts.dfy | `Payouts` | payout entries, per-user sums, the merge and the grouping |
| settlement.dfy | `Settlement` | chunking, `PayUsersTransactions`, the bonus clawback |
| resolve_market.dfy | `ResolveMarket` | the resolution decisions, payout assembly, `MarketDocs` and `ResolveMarketHelper` |
| manalink.dfy | `Manalink` | the sending-rights rule |
| send_mana.dfy | `SendMana` | the guard chain and the per-recipient fan-out |

Writes that change state are methods:
- on `Ledger.Ledger`, which holds the user accounts and the record log;
- on `ResolveMarket.MarketDocs`, which holds the market and answer
  documents.

Each such method is tied by its postcondition to a specification function:
- `Committed` and `CreditAll` for settlement;
- `SettlementTxns` and `ResolutionUpdates` for resolution;
- `Payments` and `TransferAll` for managrams.

Lemmas prove what the source promises about those functions.

## Model

| member | source | states |
|---|---|---|
| `Settlement.Chunk` | backend/shared/src/resolve-market-helpers.ts:370-373 | concatenating the chunks gives back the merged list; every chunk holds 1 to 250 entries; all but the last hold exactly 250; there are ceil(n/250) chunks |
| `Settlement.ChunkSixHundred` | backend/shared/src/resolve-market-helpers.ts:370 | 600 entries are split 250/250/100 |
| `Payouts.GroupByUser` | backend/shared/src/resolve-market-helpers.ts:133 | the grouping has one key per user that appears in the payouts (its value is that user's summed payout) |
| `Payouts.MergeUsers` | backend/shared/src/resolve-market-helpers.ts:369 | the merged list has one entry per user, and exactly the users of the input |
| `Payouts.MergeSums` | backend/shared/src/resolve-market-helpers.ts:369 | merging keeps the grand total and every user's payout sum and deposit sum (a missing deposit counts 0) |
| `Payouts.MergeMatchesGrouping` | backend/shared/src/resolve-market-helpers.ts:133 | each merged entry's payout equals the grouped value for its user, so the guard and the distribution see the same per-user sums |
| `Payouts.GroupingIgnoresOrder` | backend/shared/src/resolve-market-helpers.ts:369 | any reordering of the entries gives the same total and the same per-user sums |
| `Settlement.PayUsersTransactions` | backend/shared/src/resolve-market-helpers.ts:357-411 | the loop over chunks appends exactly the records of the committing chunks, in order, and credits exactly their entries; failing chunks are skipped and later chunks still run |
| `Settlement.PayChunk` | backend/shared/src/resolve-market-helpers.ts:391-404 | one chunk's transaction appends one payout record per entry and credits every entry's user; nothing else changes |
| `Settlement.CreditAllEffect` | backend/shared/src/resolve-market-helpers.ts:396-401 | crediting entries keeps the set of accounts and raises each account's balance by its payout sum and its deposits by its deposit sum |
| `Settlement.UncreditedUnchanged` | backend/shared/src/resolve-market-helpers.ts:396-401 | an account with no entry keeps its balance and deposits |
| `Settlement.CommittedPrefix` | backend/shared/src/resolve-market-helpers.ts:373-410 | the committed entries only grow as chunks are processed: a failure never undoes an earlier chunk |
| `Settlement.CommittingChunkRecorded` | backend/shared/src/resolve-market-helpers.ts:374-393 | every entry of a chunk that commits has its payout record in the final ledger |
| `Settlement.FailedChunkUntouched` | backend/shared/src/resolve-market-helpers.ts:391-409 | the users of a failed chunk end with exactly their old balance and deposits, since merging puts each user in exactly one chunk |
| `Settlement.PayoutTxnsAmounts` | backend/shared/src/resolve-market-helpers.ts:375-389 | the payout records' amounts add up to the payout total of the entries |
| `Settlement.FullDistribution` | backend/shared/src/resolve-market-helpers.ts:369-410 | with no failure and every user present: one record per user, record amounts sum to the total of all entries, each account rises by its user's payout and deposit sums |
| `Settlement.BonusRecordsSelection` | backend/shared/src/resolve-market-helpers.ts:319-325 | every selected row is one of the market's `UNIQUE_BETTOR_BONUS` records, and each such record is selected exactly as many times as it occurs in the ledger |
| `Settlement.PayoutsAreNotBonuses` | backend/shared/src/resolve-market-helpers.ts:168-173 | payout records written before the clawback add nothing to the bonus sum |
| `Settlement.AsWrittenClawbackFails` | backend/shared/src/resolve-market-helpers.ts:320-323 | with `$2` and one bound value the query cannot be formatted, so no clawback record is ever produced |
| `Settlement.CorrectedClawback` | backend/shared/src/resolve-market-helpers.ts:317-350 | with `$1` the query selects the market's bonus records and the record moves their summed amount from the creator (user) to the house (bank) as `CANCEL_UNIQUE_BETTOR_BONUS` |
| `Settlement.ClawbackKeepsBonusHistory` | backend/shared/src/resolve-market-helpers.ts:336-350 | the compensating record is not a bonus: the market's bonus records and their sum are unchanged after it |
| `Settlement.UndoUniqueBettorRewardsIfCancelResolution` | backend/shared/src/resolve-market-helpers.ts:309-355 | on `CANCEL` exactly one clawback record for the bonus total is appended and run, so the accounts are the result of running it; otherwise neither the ledger nor the accounts change |
| `Settlement.ClawbackDebitsCreator` | backend/shared/src/resolve-market-helpers.ts:336-350 | under the modelled runTxn, running the clawback record lowers the creator's balance by the clawed-back amount and changes no other user document and no deposits |
| `Ledger.Ledger.InsertTxns` | backend/shared/src/resolve-market-helpers.ts:393 | records are appended after the existing ones; accounts unchanged |
| `Ledger.Ledger.RunTxn` | backend/api/src/send-mana.ts:59-81 | the record is appended and the accounts become the result of running it, in one step: a user is credited only together with the record |
| `Ledger.TransferAllEffect` | backend/api/src/send-mana.ts:59-81 | under the modelled runTxn, running records in order keeps the set of user documents, moves each user's balance by the records' net flow for that user, and leaves deposits alone |
| `Ledger.Ledger.Increment` | backend/shared/src/resolve-market-helpers.ts:398-401 | one user's balance rises by the payout and totalDeposits by the deposit; nothing else changes |
| `ResolveMarket.NewCloseTime` | backend/shared/src/resolve-market-helpers.ts:55-57 | with a (non-zero) close time the new one is the smaller of it and the resolution time; an absent or zero close time is kept as is |
| `ResolveMarket.ResolutionProbability` | backend/shared/src/resolve-market-helpers.ts:257-258 | defined exactly when `probabilityInt` is, and then 100 times it equals `probabilityInt` |
| `ResolveMarket.GetDataAndPayoutInfo` | backend/shared/src/resolve-market-helpers.ts:283-307 | the payout list is the list without loans followed by the loan payouts; creator payout, fees and probability are passed through |
| `ResolveMarket.PayoutInfoLayout` | backend/shared/src/resolve-market-helpers.ts:283-287 | the creator entry comes first with deposit = creator payout, each liquidity entry follows with deposit = its payout, then the trader entries unchanged |
| `ResolveMarket.PayoutInfoTotals` | backend/shared/src/resolve-market-helpers.ts:283-299 | the list's total is creator + liquidity + trader + loan totals; each user's payout and deposit sums decompose the same way |
| `ResolveMarket.FinalProb` | backend/shared/src/resolve-market-helpers.ts:101-103 | the given probability if there is one, else 1 for YES, 0 for NO, absent otherwise |
| `ResolveMarket.MirrorAnswersCorrect` | backend/shared/src/resolve-market-helpers.ts:114-121 | same length and order; answers with another id are unchanged; the resolved answer keeps its id and gets exactly the answer attributes (undefined ones leave its own value) |
| `ResolveMarket.AnswerResolutionRollsUp` | backend/shared/src/resolve-market-helpers.ts:88-122 | for a per-answer resolution the market-level attributes, with resolution `MKT`, are written iff every other answer is resolved; the mirrored answers are always written |
| `ResolveMarket.MarketResolutionFields` | backend/shared/src/resolve-market-helpers.ts:74-85 | any other resolution writes the market's resolution fields (outcome, time, resolver, fees, subsidy pool 0, clamped close time; the resolution probability, value and resolutions when defined, the old ones otherwise) and no answer |
| `ResolveMarket.ThreeAnswerMarket` | backend/shared/src/resolve-market-helpers.ts:88-99 | in a three-answer market, resolving A leaves the market open while B or C is unresolved, and resolves it as `MKT` once both are |
| `ResolveMarket.NegPayoutThreshold` | backend/shared/src/resolve-market-helpers.ts:131 | -500 for at most two unique bettors, -10000 otherwise |
| `ResolveMarket.RejectsCancelIff` | backend/shared/src/resolve-market-helpers.ts:131-151 | refused iff outcome is `CANCEL`, the resolver is not an admin, and some user's summed payout is at or below the threshold |
| `ResolveMarket.CancelGuardExamples` | backend/shared/src/resolve-market-helpers.ts:142-151 | with two bettors, -501 is refused, -499 is accepted, and an admin is never refused |
| `ResolveMarket.MarketDocs.UpdateContract` | backend/shared/src/resolve-market-helpers.ts:154-160 | merges the update into the existing market document; fails and changes nothing when it does not exist |
| `ResolveMarket.MarketDocs.UpdateAnswer` | backend/shared/src/resolve-market-helpers.ts:161-166 | merges the answer attributes into the existing answer document; fails and changes nothing when it does not exist |
| `ResolveMarket.SettleResolution` | backend/shared/src/resolve-market-helpers.ts:168-174 | appends the committed payout records, then, for a whole-market resolution, the clawback for the market's bonus total before the payouts; the accounts are the committed entries credited, then the clawback run |
| `ResolveMarket.SettlementBalances` | backend/shared/src/resolve-market-helpers.ts:168-174 | after settlement each user's balance has risen by their committed payouts, less the bonus total for the creator on a whole-market `CANCEL` (with the corrected bonus query); deposits rise by the committed deposits only (the clawback's effect on deposits is that of the modelled runTxn); no user document appears or disappears |
| `ResolveMarket.ResolveMarketHelper` | backend/shared/src/resolve-market-helpers.ts:45-212 | a guard refusal writes nothing; a missing market or answer document stops at that write; otherwise documents, ledger and accounts end as the specification functions say and the merged market is returned |
| `Manalink.CanSendMana` | common/src/manalink.ts:20-34 | eligible iff (old enough or a bot) and (balance > 1000 or profit > 500 or investment > 1000 or creator traders > 10) |
| `Manalink.CanSendManaSupa` | common/src/manalink.ts:13-18 | decides on the last snapshot of the history, or on none when it is empty |
| `Manalink.ThresholdsAreStrict` | common/src/manalink.ts:24-33 | the age test is strict: a non-bot account exactly fourteen days old is refused even with 1001 balance; an older one with measures exactly at 1000/500/1000/10 is refused; one millisecond past fourteen days, raising any single measure by one is accepted |
| `Manalink.MissingSnapshotIsZero` | common/src/manalink.ts:31 | no snapshot decides like a snapshot with investment 0 |
| `Manalink.BotsSkipAgeRule` | common/src/manalink.ts:27-28 | for a bot, eligibility is the wealth condition alone |
| `Manalink.EligibilityIsMonotone` | common/src/manalink.ts:24-33 | more of any signal, an older account or a later time never removes eligibility |
| `Manalink.EligibilityExamples` | common/src/manalink.ts:13-33 | old and empty is refused, with 1001 balance accepted; a brand-new bot with 1001 is accepted; a day-old account is refused; the last snapshot decides |
| `SendMana.SendCheck` | backend/api/src/send-mana.ts:16-56 | accepted iff the message fits, the amount is at least 10 unless the sender is an admin, the sender is not a recipient, there is a recipient, the sender exists, the balance covers amount times the number of recipients, and the sender is eligible; a too-long message is the first error reported |
| `SendMana.SendCheckExamples` | backend/api/src/send-mana.ts:24-33 | a non-admin sending 5 is refused for the amount; an admin sending to themself, or to nobody, is refused for that |
| `SendMana.GroupIdFor` | backend/api/src/send-mana.ts:58 | the passed group id when it is non-empty, otherwise the fresh one |
| `SendMana.AsWrittenDescriptionNamesSender` | backend/api/src/send-mana.ts:78 | as written, every recipient's description is the same and none names its own recipient |
| `SendMana.DescriptionNamesRecipient` | backend/api/src/send-mana.ts:78 | the corrected description names its recipient, so different recipients get different descriptions |
| `SendMana.PaymentsShape` | backend/api/src/send-mana.ts:62-82 | every record is a public `MANA_PAYMENT` of the requested amount from the sender with the message and the one group id, to a listed recipient whose write did not fail |
| `SendMana.PaymentsRecipients` | backend/api/src/send-mana.ts:62-86 | the records' recipients, counted with repetition, are within the listed recipients |
| `SendMana.PaymentsAllDelivered` | backend/api/src/send-mana.ts:62-86 | when no write fails, the records go to exactly the listed recipients in order |
| `SendMana.DistinctRecipientsPaidOnce` | backend/api/src/send-mana.ts:62-86 | with no repeated recipient, each recipient has at most one record |
| `SendMana.PaymentsTotal` | backend/api/src/send-mana.ts:62-81 | at most one record per listed recipient, each for the same amount |
| `SendMana.AcceptedSendIsCovered` | backend/api/src/send-mana.ts:42-86 | after the guards pass, the amounts written never exceed the sender's checked balance (non-negative amount), whichever writes fail |
| `SendMana.SendMana` | backend/api/src/send-mana.ts:14-87 | returns the first failing guard and changes nothing then; otherwise appends exactly the records of the recipients whose write succeeded, in order, the accounts are the result of running them, and the sender's balance stays non-negative for a non-negative amount |
| `SendMana.PaymentsNetFlow` | backend/api/src/send-mana.ts:62-81 | the records' net effect is minus the amount per record for the sender, and the amount per record naming them for every other user |
| `SendMana.ManagramBalances` | backend/api/src/send-mana.ts:59-81 | under the modelled runTxn, after an accepted managram the sender's balance has fallen by the amount times the records written, each other user's has risen by the amount per record naming them, deposits are unchanged and no user document appears |
| `SendMana.SenderStaysSolvent` | backend/api/src/send-mana.ts:35-81 | when the guard read the same user document the records debit, an accepted managram with a non-negative amount leaves the sender's balance at zero or more, whichever writes fail |

## Left out

- Document and relational store I/O is reduced to the two classes. This covers Firestore reads and writes, SQL text, and the `pg.tx` / `runTransaction` plumbing. Each payout chunk is all-or-nothing. The chunk's `insertTxns` call (resolve-market-helpers.ts:393) is not awaited, so the two stores could disagree; that is not modelled.
- `getPayouts` and `getLoanPayouts` are not part of this model. Their results are the input `CalculatedPayouts`. Loading bets and liquidity documents (resolve-market-helpers.ts:222-255) is left out with them.
- `checkAndMergePayouts` and `groupPayoutsByUser` are not part of this model. `Payouts.Merge` and `Payouts.GroupByUser` assume they sum `payout` and `deposit` per user. `Merge` keeps users in order of first appearance.
- Normalising `resolutions` by their total (resolve-market-helpers.ts:260-265) is fractional arithmetic and is not modelled. `probabilityInt / 100` is modelled with `real`.
- `runTxn` is not part of this model. `Ledger.Ledger.RunTxn` stands for it: it appends the record and moves the amount from the sending user's balance to the receiving user's. The comment at send-mana.ts:60-61 only says that a credited user implies the record was written; the debit of the sender is this model's reading of a transfer. Whether `runTxn` also changes `totalDeposits`, and the checks it performs itself (such as the sender's balance at send-mana.ts:59), are not captured. A managram write that fails is an input (`failing`).
- `Ledger.TransferAllEffect`: a record whose user is missing from `accounts` moves no balance for that user; what `runTxn` does then is not captured.
- `Promise.allSettled` runs the managram writes concurrently. The model writes them in a sequential loop, and the race between writes is not modelled.
- These side effects are left out: notifications, `trackPublicEvent`, `recordContractEdit`, `revalidateStaticProps`, `updateContractMetricsForUsers` and logging.
- `Date.now()`, `crypto.randomUUID()` and the failure of a payout chunk are inputs: `resolutionTime`, `payoutStartTime`, `now`, `freshGroupId` and `failingChunks`.
- `canSendManaDirect` is not part of this model. `SendMana` uses `CanSendManaSupa` on the sender's record and a passed portfolio history. `getPortfolioHistory` is not part of this model either: the history of the past day is an input.
- `MAX_COMMENT_LENGTH`, `BOT_USERNAMES`, the admin ids and the house account id are inputs. The prod/dev choice of house account is left to the caller.
- The message limit counts elements of a `seq<char>`, where JavaScript counts UTF-16 code units.
- Amounts and balances are integers, where JavaScript numbers may be fractional.
- Record descriptions are structured values, not formatted strings.
- The market's `collectedFees` is an object in the source that resolution only passes through to the market document. The model keeps it as an opaque `int` and states nothing about its contents.
- The layout of the relational ledger's rows (which JSON fields hold the contract id and the amount) is not visible. The clawback reads each record's contract id and amount.
- `SendMana.DistinctRecipientsPaidOnce`: holds only when no recipient id is repeated. The code pays a repeated id once per occurrence, and `PaymentsRecipients` states that general case.
- `Settlement.UndoUniqueBettorRewardsIfCancelResolution`: uses the corrected bonus query (`$1`). As written, its transaction throws on every `CANCEL` and writes no clawback record; `Settlement.AsWrittenClawbackFails` covers that behaviour.
- `ResolveMarket.SettleResolution`: its clawback comes from the corrected bonus query, so on a whole-market `CANCEL` it appends the clawback record and debits the creator, where the code as written throws at that point after the payouts.
- `SendMana.SendMana`: the guard reads the sender's user document (`users`) and the records debit the same document (`accounts`). The model holds them apart and requires the sender's two balances to agree on entry.
- `SendMana.SendMana`: its records carry the corrected description, which names the recipient. As written, each description names the sender's id (send-mana.ts:78); `SendMana.AsWrittenPaymentDescription` models that text.
- `SendMana.PaymentsShape`: its description clause is the corrected one, `PaymentDescription` of the record's recipient, not the as-written text of send-mana.ts:78.
- `ResolveMarket.SettlementBalances`: its `clawedBack` term, the creator's debit on a whole-market `CANCEL`, is the corrected behaviour. As written, the bonus query throws, no clawback record is run and the creator's balance is not lowered.
- `ResolveMarket.ResolveMarketHelper`: uses the corrected bonus query. As written, every whole-market `CANCEL` throws at the clawback, after the payouts have been made (see Findings).

## Findings

| source | as written | input that shows it | evidently intended | confidence | as-written member | corrected member |
|---|---|---|---|---|---|---|
| backend/shared/src/resolve-market-helpers.ts:320-323 | the bonus query compares the contract id with `$2` but binds only `[contract.id]` | any whole-market `CANCEL` resolution, e.g. contract `c1`: `$2` has no value, so formatting fails and no clawback record is written, after the payouts already ran | compare with `$1` | high; not executed | `Settlement.AsWrittenClawbackFails` | `Settlement.CorrectedClawback` |
| backend/api/src/send-mana.ts:78 | the description ends with `auth.uid`, the sender's id | sender `u1` (username `alice`) sends 10 to `u2` and `u3`: both records read "Mana payment 10 from alice to u1" | end with the recipient `toId` | medium; not executed | `SendMana.AsWrittenDescriptionNamesSender` | `SendMana.DescriptionNamesRecipient` |

=== FILE: common.dfy ===
/** Small failure-compatible wrappers shared by every module of the model. */
module Common {

  /** An optional value: `undefined` becomes None. */
  datatype Option<+T> = None | Some(value: T)

  /** The value of an operation that either succeeds or throws an API error. */
  datatype Result<+T, +E> = Ok(value: T) | Err(error: E)
}

=== FILE: ledger.dfy ===
/**
 * The ledger that both settlement and direct transfers bottom out in:
 * per-user account documents (balance and lifetime deposits) and the
 * append-only log of transaction records.
 */
module Ledger {
  import opened Common

  /** `fromType` / `toType` of a transaction record. */
  datatype AccountType = UserAccount | ContractAccount | BankAccount

  /** The closed set of transaction categories this model writes or reads. */
  datatype Category =
    | ManaPayment
    | ContractResolutionPayout
    | UniqueBettorBonus
    | CancelUniqueBettorBonus

  /** The `data` payload of a record, one shape per category. */
  datatype TxnData =
    | PaymentData(message: string, groupId: string, visibility: string)
    | PayoutData(deposit: int, payoutStartTime: int, answerId: Option<string>)
    | BonusData(contractId: string)

  /** The human-readable `description` of a record, kept structured. */
  datatype Description =
    | NoDescription
    | PayoutFor(contractId: string)
    | ManaPaymentOf(amount: int, fromUsername: string, toId: string)

  /** An immutable ledger record (its id and creation time are assigned by the store). */
  datatype Txn = Txn(
    fromId: string,
    fromType: AccountType,
    toId: string,
    toType: AccountType,
    amount: int,
    token: string,
    category: Category,
    data: TxnData,
    description: Description)

  /** The ledger-relevant part of a user document. */
  datatype Account = Account(balance: int, totalDeposits: int)

  /** The currency token every record in this model carries. */
  const ManaToken: string := "M$"

  /** Sum of the amounts of a list of records. */
  function SumAmounts(ts: seq<Txn>): int
  {
    if ts == [] then 0 else SumAmounts(ts[..|ts| - 1]) + ts[|ts| - 1].amount
  }

  /** The sum over a concatenation is the sum of the sums. */
  lemma {:induction false} SumAmountsConcat(a: seq<Txn>, b: seq<Txn>)
    ensures SumAmounts(a + b) == SumAmounts(a) + SumAmounts(b)
    decreases |b|
  {
    if b == [] {
      assert a + b == a;
    } else {
      assert (a + b)[..|a + b| - 1] == a + b[..|b| - 1];
      SumAmountsConcat(a, b[..|b| - 1]);
    }
  }

  /** Adds `delta` to the balance of user document `id`, when there is one. */
  function AdjustBalance(accounts: map<string, Account>, id: string, delta: int): map<string, Account>
  {
    if id in accounts then accounts[id := Account(accounts[id].balance + delta, accounts[id].totalDeposits)]
    else accounts
  }

  /**
   * What one record does to user `u`'s balance when it is run: a user that
   * sends loses the amount, a user that receives gains it (bank and market
   * endpoints hold no user document).
   */
  function FlowOf(t: Txn, u: string): int
  {
    (if t.toType == UserAccount && t.toId == u then t.amount else 0)
    - (if t.fromType == UserAccount && t.fromId == u then t.amount else 0)
  }

  /** The net effect of a list of records on user `u`'s balance. */
  function NetFlow(ts: seq<Txn>, u: string): int
  {
    if ts == [] then 0 else NetFlow(ts[..|ts| - 1], u) + FlowOf(ts[|ts| - 1], u)
  }

  /** The balance effect of running one record: debit the sending user, credit the receiving user. */
  function Transfer(accounts: map<string, Account>, t: Txn): map<string, Account>
  {
    var debited := if t.fromType == UserAccount then AdjustBalance(accounts, t.fromId, -t.amount) else accounts;
    if t.toType == UserAccount then AdjustBalance(debited, t.toId, t.amount) else debited
  }

  /** The balance effect of running records one after another. */
  function TransferAll(accounts: map<string, Account>, ts: seq<Txn>): map<string, Account>
  {
    if ts == [] then accounts else Transfer(TransferAll(accounts, ts[..|ts| - 1]), ts[|ts| - 1])
  }

  /**
   * Running a record creates or removes no user document, moves `u`'s
   * balance by exactly the record's flow for `u`, and never touches
   * lifetime deposits.
   */
  lemma TransferEffect(accounts: map<string, Account>, t: Txn, u: string)
    ensures Transfer(accounts, t).Keys == accounts.Keys
    ensures u in accounts ==>
      Transfer(accounts, t)[u] == Account(accounts[u].balance + FlowOf(t, u), accounts[u].totalDeposits)
  {
  }

  /**
   * Running records in sequence keeps the user documents and moves each
   * user's balance by the records' net flow for that user.
   */
  lemma {:induction false} TransferAllEffect(accounts: map<string, Account>, ts: seq<Txn>, u: string)
    ensures TransferAll(accounts, ts).Keys == accounts.Keys
    ensures u in accounts ==>
      TransferAll(accounts, ts)[u] == Account(accounts[u].balance + NetFlow(ts, u), accounts[u].totalDeposits)
    decreases |ts|
  {
    if ts != [] {
      TransferAllEffect(accounts, ts[..|ts| - 1], u);
      TransferEffect(TransferAll(accounts, ts[..|ts| - 1]), ts[|ts| - 1], u);
    }
  }

  /** Appending a record adds its flow. */
  lemma NetFlowSnoc(ts: seq<Txn>, t: Txn, u: string)
    ensures NetFlow(ts + [t], u) == NetFlow(ts, u) + FlowOf(t, u)
  {
    assert (ts + [t])[..|ts|] == ts;
  }

  /**
   * The two stores the core writes to: `accounts` stands for the user
   * documents of the document store, `txns` for the relational ledger.
   */
  class Ledger {
    var accounts: map<string, Account>
    var txns: seq<Txn>

    constructor (accounts: map<string, Account>, txns: seq<Txn>)
      ensures this.accounts == accounts && this.txns == txns
    {
      this.accounts := accounts;
      this.txns := txns;
    }

    /** Appends records to the ledger; no balance changes. */
    method InsertTxns(ts: seq<Txn>)
      modifies this
      ensures txns == old(txns) + ts
      ensures accounts == old(accounts)
    {
      txns := txns + ts;
    }

    /**
     * `runTxn`: writes one record and moves its amount from the sending
     * user's balance to the receiving user's, in one transaction.
     */
    method RunTxn(t: Txn)
      modifies this
      ensures txns == old(txns) + [t]
      ensures accounts == Transfer(old(accounts), t)
    {
      txns := txns + [t];
      accounts := Transfer(accounts, t);
    }

    /**
     * One `FieldValue.increment` of a user's `balance` by `payout` and of
     * `totalDeposits` by `deposit`, inside a document-store transaction.
     */
    method Increment(userId: string, payout: int, deposit: int)
      requires userId in accounts
      modifies this
      ensures accounts == old(accounts)[userId := Account(old(accounts)[userId].balance + payout,
                                                          old(accounts)[userId].totalDeposits + deposit)]
      ensures txns == old(txns)
    {
      var a := accounts[userId];
      accounts := accounts[userId := Account(a.balance + payout, a.totalDeposits + deposit)];
    }
  }
}

=== FILE: manalink.dfy ===
/**
 * The eligibility rule for sending mana: an account must be old enough (or
 * a known bot) and must hold enough balance, profit, invested value or
 * creator traders.
 */
module Manalink {
  import opened Common

  /** One day in milliseconds. */
  const DayMs: int := 86400000

  /** The user fields the rule reads. */
  datatype User = User(
    id: string,
    createdTime: int,
    username: string,
    balance: int,
    profitAllTime: int,
    creatorTradersAllTime: int)

  /** One point of a user's portfolio history. */
  datatype PortfolioSnapshot = PortfolioSnapshot(timestamp: int, investmentValue: int)

  /** Accounts created before this instant are old enough. */
  function AgeThreshold(now: int): (t: int)
    ensures t == now - 1209600000
  {
    now - 14 * DayMs
  }

  /** `lastPortfolioHistory?.investmentValue ?? 0` */
  function InvestmentOf(last: Option<PortfolioSnapshot>): int
  {
    match last
    case Some(p) => p.investmentValue
    case None => 0
  }

  /** The account is old enough, or belongs to a bot. */
  predicate OldEnough(user: User, now: int, botUsernames: set<string>)
  {
    user.createdTime < AgeThreshold(now) || user.username in botUsernames
  }

  /** The account has more than enough of one of the four measures of standing. */
  predicate HasStanding(user: User, last: Option<PortfolioSnapshot>)
  {
    || user.balance > 1000
    || user.profitAllTime > 500
    || InvestmentOf(last) > 1000
    || user.creatorTradersAllTime > 10
  }

  /** `canSendMana`: the current time and the bot list are inputs. */
  function CanSendMana(user: User, last: Option<PortfolioSnapshot>, now: int, botUsernames: set<string>): (ok: bool)
    ensures ok <==> OldEnough(user, now, botUsernames) && HasStanding(user, last)
  {
    (user.createdTime < AgeThreshold(now) || user.username in botUsernames)
    && (user.balance > 1000 || user.profitAllTime > 500 || InvestmentOf(last) > 1000
        || user.creatorTradersAllTime > 10)
  }

  /**
   * `canSendManaSupa`: the rule applied to the last point of the
   * portfolio history of the past day (none when that history is empty).
   */
  function CanSendManaSupa(user: User, history: seq<PortfolioSnapshot>, now: int, botUsernames: set<string>): (ok: bool)
    ensures history == [] ==> ok == CanSendMana(user, None, now, botUsernames)
    ensures history != [] ==> ok == CanSendMana(user, Some(history[|history| - 1]), now, botUsernames)
  {
    CanSendMana(user, if history == [] then None else Some(history[|history| - 1]), now, botUsernames)
  }

  /**
   * Every threshold is strict. A non-bot account exactly fourteen days old
   * may not send even with enough balance, and one whose measures sit
   * exactly at 1000, 500, 1000 and 10 may not send however old it is. One
   * millisecond older than fourteen days, one more unit of any single
   * measure is enough.
   */
  lemma ThresholdsAreStrict(user: User, snap: PortfolioSnapshot, now: int, botUsernames: set<string>)
    requires user.username !in botUsernames
    requires user.balance == 1000 && user.profitAllTime == 500 && user.creatorTradersAllTime == 10
    requires snap.investmentValue == 1000
    ensures user.createdTime == now - 14 * DayMs ==> !CanSendMana(user, Some(snap), now, botUsernames)
    ensures !CanSendMana(user.(createdTime := now - 15 * DayMs), Some(snap), now, botUsernames)
    ensures CanSendMana(user.(createdTime := now - 14 * DayMs - 1, balance := 1001), Some(snap), now, botUsernames)
    ensures !CanSendMana(user.(createdTime := AgeThreshold(now), balance := 1001), Some(snap), now, botUsernames)
    ensures !CanSendMana(user.(createdTime := AgeThreshold(now) - 1), Some(snap), now, botUsernames)
    ensures CanSendMana(user.(createdTime := AgeThreshold(now) - 1, profitAllTime := 501), Some(snap), now, botUsernames)
    ensures CanSendMana(user.(createdTime := AgeThreshold(now) - 1), Some(snap.(investmentValue := 1001)), now, botUsernames)
    ensures CanSendMana(user.(createdTime := AgeThreshold(now) - 1, creatorTradersAllTime := 11), Some(snap), now, botUsernames)
  {
  }

  /** A missing snapshot counts as no investment at all. */
  lemma MissingSnapshotIsZero(user: User, now: int, botUsernames: set<string>)
    ensures CanSendMana(user, None, now, botUsernames) == CanSendMana(user, Some(PortfolioSnapshot(now, 0)), now, botUsernames)
  {
  }

  /** A bot may send however new its account is, as long as it has standing. */
  lemma BotsSkipAgeRule(user: User, last: Option<PortfolioSnapshot>, now: int, botUsernames: set<string>)
    requires user.username in botUsernames
    ensures CanSendMana(user, last, now, botUsernames) <==> HasStanding(user, last)
  {
  }

  /**
   * More balance, profit, investment or creator traders, an older account
   * or a later time never take the right to send away.
   */
  lemma EligibilityIsMonotone(user: User, better: User, last: Option<PortfolioSnapshot>,
                              lastBetter: Option<PortfolioSnapshot>, now: int, later: int, botUsernames: set<string>)
    requires better.username == user.username
    requires better.createdTime <= user.createdTime && now <= later
    requires better.balance >= user.balance && better.profitAllTime >= user.profitAllTime
    requires better.creatorTradersAllTime >= user.creatorTradersAllTime
    requires InvestmentOf(lastBetter) >= InvestmentOf(last)
    ensures CanSendMana(user, last, now, botUsernames) ==> CanSendMana(better, lastBetter, later, botUsernames)
  {
  }

  /**
   * An old account with nothing is refused and the same account with a
   * balance of 1001 may send; a bot created this instant with 1001 may
   * send; a day-old non-bot account may not, however rich; the last
   * snapshot of the history is the one that counts.
   */
  lemma EligibilityExamples(now: int)
    ensures !CanSendManaSupa(User("a", now - 15 * DayMs, "alice", 0, 0, 0), [], now, {"bot"})
    ensures CanSendManaSupa(User("a", now - 15 * DayMs, "alice", 1001, 0, 0), [], now, {"bot"})
    ensures CanSendManaSupa(User("b", now, "bot", 1001, 0, 0), [], now, {"bot"})
    ensures !CanSendManaSupa(User("c", now - DayMs, "carol", 5000, 5000, 50), [PortfolioSnapshot(now, 5000)], now, {"bot"})
    ensures CanSendManaSupa(User("d", now - 15 * DayMs, "dave", 0, 0, 0),
                            [PortfolioSnapshot(now - 2, 0), PortfolioSnapshot(now - 1, 1001)], now, {"bot"})
    ensures !CanSendManaSupa(User("d", now - 15 * DayMs, "dave", 0, 0, 0),
                             [PortfolioSnapshot(now - 2, 1001), PortfolioSnapshot(now - 1, 0)], now, {"bot"})
  {
  }
}

=== FILE: payouts.dfy ===
/**
 * Payout entries `{userId, payout, deposit?}` as produced by the payout
 * calculator, and the per-user grouping and merging that settlement applies
 * to them before anything is written.
 *
 * The bodies of `groupPayoutsByUser` and `checkAndMergePayouts` are not
 * part of this model; both are assumed to sum per user, and this module
 * gives that assumption an explicit definition (GroupByUser, Merge) whose
 * properties are proved below.
 */
module Payouts {
  import opened Common

  /** One computed, not yet committed payout; `deposit` is optional. */
  datatype Payout = Payout(userId: string, payout: int, deposit: Option<int>)

  /** `deposit ?? 0` */
  function DepositOf(p: Payout): int
  {
    match p.deposit
    case Some(d) => d
    case None => 0
  }

  /** Sum of all payout amounts. */
  function Total(ps: seq<Payout>): int
  {
    if ps == [] then 0 else Total(ps[..|ps| - 1]) + ps[|ps| - 1].payout
  }

  /** Sum of the payout amounts of the entries that belong to `u`. */
  function UserTotal(ps: seq<Payout>, u: string): int
  {
    if ps == [] then 0
    else UserTotal(ps[..|ps| - 1], u) + (if ps[|ps| - 1].userId == u then ps[|ps| - 1].payout else 0)
  }

  /** Sum of `deposit ?? 0` over the entries that belong to `u`. */
  function UserDeposits(ps: seq<Payout>, u: string): int
  {
    if ps == [] then 0
    else UserDeposits(ps[..|ps| - 1], u) + (if ps[|ps| - 1].userId == u then DepositOf(ps[|ps| - 1]) else 0)
  }

  /** The users that occur in a payout list. */
  function Users(ps: seq<Payout>): set<string>
  {
    set i | 0 <= i < |ps| :: ps[i].userId
  }

  /** No user occurs twice. */
  predicate DistinctUsers(ps: seq<Payout>)
  {
    forall i, j :: 0 <= i < j < |ps| ==> ps[i].userId != ps[j].userId
  }

  /** `groupPayoutsByUser`: each user's summed payout. */
  function GroupByUser(ps: seq<Payout>): (g: map<string, int>)
    ensures g.Keys == Users(ps)
  {
    map u | u in Users(ps) :: UserTotal(ps, u)
  }

  /** Every sum over a concatenation is the sum of the sums of its parts. */
  lemma {:induction false} SumsConcat(a: seq<Payout>, b: seq<Payout>, u: string)
    ensures Total(a + b) == Total(a) + Total(b)
    ensures UserTotal(a + b, u) == UserTotal(a, u) + UserTotal(b, u)
    ensures UserDeposits(a + b, u) == UserDeposits(a, u) + UserDeposits(b, u)
    decreases |b|
  {
    if b != [] {
      var b' := b[..|b| - 1];
      assert (a + b)[..|a + b| - 1] == a + b';
      assert (a + b)[|a + b| - 1] == b[|b| - 1];
      SumsConcat(a, b', u);
    } else {
      assert a + b == a;
    }
  }

  /** A user with no entry is owed nothing. */
  lemma {:induction false} AbsentUserTotal(ps: seq<Payout>, u: string)
    requires u !in Users(ps)
    ensures UserTotal(ps, u) == 0 && UserDeposits(ps, u) == 0
    decreases |ps|
  {
    if ps != [] {
      var ps' := ps[..|ps| - 1];
      assert Users(ps') <= Users(ps) by {
        forall x | x in Users(ps') ensures x in Users(ps) {
          var i :| 0 <= i < |ps'| && ps'[i].userId == x;
          assert ps[i].userId == x;
        }
      }
      assert ps[|ps| - 1].userId in Users(ps);
      AbsentUserTotal(ps', u);
    }
  }

  /** In a list with distinct users, a user's sum is the amount of its one entry. */
  lemma {:induction false} DistinctUserTotal(m: seq<Payout>, i: nat)
    requires DistinctUsers(m) && i < |m|
    ensures UserTotal(m, m[i].userId) == m[i].payout
    ensures UserDeposits(m, m[i].userId) == DepositOf(m[i])
  {
    var u := m[i].userId;
    var before, after := m[..i], m[i + 1..];
    assert m == before + [m[i]] + after;
    forall k | 0 <= k < |after| ensures after[k].userId != u {
      assert after[k] == m[i + 1 + k];
    }
    assert u !in Users(after);
    forall k | 0 <= k < |before| ensures before[k].userId != u {
      assert before[k] == m[k];
    }
    assert u !in Users(before);
    AbsentUserTotal(before, u);
    AbsentUserTotal(after, u);
    SumsConcat(before, [m[i]], u);
    SumsConcat(before + [m[i]], after, u);
    assert [m[i]][..0] == [];
  }

  /** The position of `u`'s entry, or -1. */
  function IndexOfUser(m: seq<Payout>, u: string): (i: int)
    ensures -1 <= i < |m|
    ensures 0 <= i ==> m[i].userId == u
    ensures i < 0 ==> forall k :: 0 <= k < |m| ==> m[k].userId != u
  {
    if m == [] then -1
    else if m[|m| - 1].userId == u then |m| - 1
    else IndexOfUser(m[..|m| - 1], u)
  }

  /** Folds one raw entry into a merged list: adds to the user's entry, or appends a new one. */
  function AddTo(m: seq<Payout>, p: Payout): seq<Payout>
  {
    var i := IndexOfUser(m, p.userId);
    if i < 0 then m + [Payout(p.userId, p.payout, Some(DepositOf(p)))]
    else m[i := Payout(p.userId, m[i].payout + p.payout, Some(DepositOf(m[i]) + DepositOf(p)))]
  }

  /** `checkAndMergePayouts`: one entry per user, in order of first appearance, with summed amounts. */
  function Merge(ps: seq<Payout>): seq<Payout>
  {
    if ps == [] then [] else AddTo(Merge(ps[..|ps| - 1]), ps[|ps| - 1])
  }

  /** Replacing one entry changes each sum by exactly the difference. */
  lemma {:induction false} UpdateSums(m: seq<Payout>, i: nat, x: Payout, u: string)
    requires i < |m|
    ensures Total(m[i := x]) == Total(m) - m[i].payout + x.payout
    ensures UserTotal(m[i := x], u) == UserTotal(m, u)
                                        - (if m[i].userId == u then m[i].payout else 0)
                                        + (if x.userId == u then x.payout else 0)
    ensures UserDeposits(m[i := x], u) == UserDeposits(m, u)
                                           - (if m[i].userId == u then DepositOf(m[i]) else 0)
                                           + (if x.userId == u then DepositOf(x) else 0)
  {
    var n := |m| - 1;
    if i < n {
      assert m[i := x][..n] == m[..n][i := x];
      UpdateSums(m[..n], i, x, u);
    } else {
      assert m[i := x][..n] == m[..n];
    }
  }

  /** Folding in one entry adds exactly that entry to its user's sums. */
  lemma {:induction false} AddToSums(m: seq<Payout>, p: Payout, u: string)
    ensures Total(AddTo(m, p)) == Total(m) + p.payout
    ensures UserTotal(AddTo(m, p), u) == UserTotal(m, u) + (if u == p.userId then p.payout else 0)
    ensures UserDeposits(AddTo(m, p), u) == UserDeposits(m, u) + (if u == p.userId then DepositOf(p) else 0)
  {
    var i := IndexOfUser(m, p.userId);
    if i < 0 {
      var e := Payout(p.userId, p.payout, Some(DepositOf(p)));
      assert (m + [e])[..|m|] == m;
    } else {
      UpdateSums(m, i, Payout(p.userId, m[i].payout + p.payout, Some(DepositOf(m[i]) + DepositOf(p))), u);
    }
  }

  lemma {:induction false} AddToUsers(m: seq<Payout>, p: Payout)
    requires DistinctUsers(m)
    ensures DistinctUsers(AddTo(m, p))
    ensures Users(AddTo(m, p)) == Users(m) + {p.userId}
  {
    var i := IndexOfUser(m, p.userId);
    var r := AddTo(m, p);
    if i < 0 {
      assert r == m + [Payout(p.userId, p.payout, Some(DepositOf(p)))];
      assert r[|m|].userId == p.userId;
      forall x | x in Users(m) ensures x in Users(r) {
        var k :| 0 <= k < |m| && m[k].userId == x;
        assert r[k] == m[k];
      }
    } else {
      forall x | x in Users(m) ensures x in Users(r) {
        var k :| 0 <= k < |m| && m[k].userId == x;
        assert r[k].userId == x;
      }
    }
  }

  /** Merging keeps exactly the users of the input, once each. */
  lemma {:induction false} MergeUsers(ps: seq<Payout>)
    ensures DistinctUsers(Merge(ps))
    ensures Users(Merge(ps)) == Users(ps)
    decreases |ps|
  {
    if ps != [] {
      var ps' := ps[..|ps| - 1];
      MergeUsers(ps');
      AddToUsers(Merge(ps'), ps[|ps| - 1]);
      UsersSnoc(ps);
    }
  }

  /** Merging keeps the grand total and every user's payout and deposit sums. */
  lemma {:induction false} MergeSums(ps: seq<Payout>, u: string)
    ensures Total(Merge(ps)) == Total(ps)
    ensures UserTotal(Merge(ps), u) == UserTotal(ps, u)
    ensures UserDeposits(Merge(ps), u) == UserDeposits(ps, u)
    decreases |ps|
  {
    if ps != [] {
      var ps' := ps[..|ps| - 1];
      MergeSums(ps', u);
      AddToSums(Merge(ps'), ps[|ps| - 1], u);
    }
  }

  lemma UsersSnoc(ps: seq<Payout>)
    requires ps != []
    ensures Users(ps) == Users(ps[..|ps| - 1]) + {ps[|ps| - 1].userId}
  {
    var ps' := ps[..|ps| - 1];
    forall x | x in Users(ps) ensures x in Users(ps') + {ps[|ps| - 1].userId} {
      var k :| 0 <= k < |ps| && ps[k].userId == x;
      if k < |ps'| { assert ps'[k] == ps[k]; }
    }
    forall x | x in Users(ps') ensures x in Users(ps) {
      var k :| 0 <= k < |ps'| && ps'[k].userId == x;
      assert ps[k] == ps'[k];
    }
  }

  /** The merged list is the grouping: each merged entry carries its user's grouped sum. */
  lemma MergeMatchesGrouping(ps: seq<Payout>, i: nat)
    requires i < |Merge(ps)|
    ensures Merge(ps)[i].userId in GroupByUser(ps)
    ensures GroupByUser(ps)[Merge(ps)[i].userId] == Merge(ps)[i].payout
  {
    MergeUsers(ps);
    MergeSums(ps, Merge(ps)[i].userId);
    DistinctUserTotal(Merge(ps), i);
    assert Merge(ps)[i].userId in Users(Merge(ps));
  }

  /** Removing the entry at `j` removes one occurrence of it from the multiset. */
  lemma RemoveAtMultiset(qs: seq<Payout>, j: nat)
    requires j < |qs|
    ensures multiset(qs[..j] + qs[j + 1..]) == multiset(qs) - multiset([qs[j]])
  {
    assert qs == qs[..j] + [qs[j]] + qs[j + 1..];
  }

  /** The sums of a list are those of the list without entry `j`, plus that entry. */
  lemma RemoveAtSums(qs: seq<Payout>, j: nat, u: string)
    requires j < |qs|
    ensures var rest := qs[..j] + qs[j + 1..];
            && Total(qs) == Total(rest) + qs[j].payout
            && UserTotal(qs, u) == UserTotal(rest, u) + (if qs[j].userId == u then qs[j].payout else 0)
            && UserDeposits(qs, u) == UserDeposits(rest, u) + (if qs[j].userId == u then DepositOf(qs[j]) else 0)
  {
    var before, x, after := qs[..j], qs[j], qs[j + 1..];
    assert qs == before + [x] + after;
    assert [x][..0] == [];
    SumsConcat(before, [x], u);
    SumsConcat(before + [x], after, u);
    SumsConcat(before, after, u);
  }

  /** Grouping does not depend on the order of the entries. */
  lemma {:induction false} GroupingIgnoresOrder(ps: seq<Payout>, qs: seq<Payout>, u: string)
    requires multiset(ps) == multiset(qs)
    ensures Total(ps) == Total(qs)
    ensures UserTotal(ps, u) == UserTotal(qs, u)
    ensures UserDeposits(ps, u) == UserDeposits(qs, u)
    decreases |ps|
  {
    if ps == [] {
      assert |qs| == |multiset(qs)| == 0;
    } else {
      var last := |ps| - 1;
      var x := ps[last];
      RemoveAtMultiset(ps, last);
      assert ps[..last] + ps[last + 1..] == ps[..last];
      assert x in multiset(qs);
      var j :| 0 <= j < |qs| && qs[j] == x;
      RemoveAtMultiset(qs, j);
      GroupingIgnoresOrder(ps[..last], qs[..j] + qs[j + 1..], u);
      RemoveAtSums(ps, last, u);
      RemoveAtSums(qs, j, u);
    }
  }

  lemma UsersConcat(a: seq<Payout>, b: seq<Payout>)
    ensures Users(a + b) == Users(a) + Users(b)
  {
    forall x | x in Users(a + b) ensures x in Users(a) + Users(b) {
      var k :| 0 <= k < |a + b| && (a + b)[k].userId == x;
      if k < |a| { assert a[k] == (a + b)[k]; } else { assert b[k - |a|] == (a + b)[k]; }
    }
    forall x | x in Users(a) ensures x in Users(a + b) {
      var k :| 0 <= k < |a| && a[k].userId == x;
      assert (a + b)[k] == a[k];
    }
    forall x | x in Users(b) ensures x in Users(a + b) {
      var k :| 0 <= k < |b| && b[k].userId == x;
      assert (a + b)[|a| + k] == b[k];
    }
  }

  /** The parts of a list without repeated users have no repeated users and share none. */
  lemma DistinctSplit(a: seq<Payout>, b: seq<Payout>)
    requires DistinctUsers(a + b)
    ensures DistinctUsers(a) && DistinctUsers(b)
    ensures Users(a) !! Users(b)
  {
    forall i, j | 0 <= i < j < |a| ensures a[i].userId != a[j].userId {
      assert a[i] == (a + b)[i] && a[j] == (a + b)[j];
    }
    forall i, j | 0 <= i < j < |b| ensures b[i].userId != b[j].userId {
      assert b[i] == (a + b)[|a| + i] && b[j] == (a + b)[|a| + j];
    }
    forall i, j | 0 <= i < |a| && 0 <= j < |b| ensures a[i].userId != b[j].userId {
      assert (a + b)[i] == a[i] && (a + b)[|a| + j] == b[j];
    }
  }
}

=== FILE: resolve_market.dfy ===
/**
 * The decisions of `resolveMarketHelper` and the payout assembly of
 * `getDataAndPayoutInfo`: close-time clamping, the multi-answer roll-up,
 * the answer mirroring, the final-probability fallback, the guard against
 * large negative payouts on `CANCEL`, and the order of writes that ends in
 * payout distribution and the bonus clawback.
 */
module ResolveMarket {
  import opened Common
  import opened Ledger
  import opened Payouts
  import opened Settlement

  /** One answer of a multiple-choice market (also stored as its own document). */
  datatype Answer = Answer(
    id: string,
    resolution: Option<string>,
    resolutionTime: Option<int>,
    resolutionProbability: Option<real>,
    prob: real,
    resolverId: Option<string>)

  /** The market document fields that resolution reads or writes. */
  datatype Contract = Contract(
    id: string,
    creatorId: string,
    mechanism: string,
    closeTime: Option<int>,
    answers: seq<Answer>,
    uniqueBettorCount: int,
    isResolved: bool,
    resolution: Option<string>,
    resolutionValue: Option<real>,
    resolutionTime: Option<int>,
    resolutionProbability: Option<real>,
    resolutions: Option<map<string, real>>,
    collectedFees: int,
    resolverId: Option<string>,
    subsidyPool: int)

  /** `ResolutionParams` */
  datatype ResolutionParams = ResolutionParams(
    outcome: string,
    probabilityInt: Option<int>,
    answerId: Option<string>,
    value: Option<real>,
    resolutions: Option<map<string, real>>)

  /** What the external payout calculator (`getPayouts`) and `getLoanPayouts` return. */
  datatype CalculatedPayouts = CalculatedPayouts(
    traderPayouts: seq<Payout>,
    creatorPayout: int,
    liquidityPayouts: seq<Payout>,
    collectedFees: int,
    loanPayouts: seq<Payout>)

  /** What `getDataAndPayoutInfo` hands back to the orchestrator. */
  datatype PayoutInfo = PayoutInfo(
    payoutsWithoutLoans: seq<Payout>,
    creatorPayout: int,
    collectedFees: int,
    resolutionProbability: Option<real>,
    payouts: seq<Payout>)

  const MultiChoiceMechanism: string := "cpmm-multi-1"

  /** JavaScript truthiness of an optional string: absent and "" are both false. */
  predicate Truthy(s: Option<string>)
  {
    s.Some? && s.value != ""
  }

  /** `closeTime ? Math.min(closeTime, resolutionTime) : closeTime` */
  function NewCloseTime(closeTime: Option<int>, resolutionTime: int): (r: Option<int>)
    ensures closeTime.None? || closeTime.value == 0 ==> r == closeTime
    ensures closeTime.Some? && closeTime.value != 0 ==>
      && r.Some?
      && r.value <= closeTime.value && r.value <= resolutionTime
      && (r.value == closeTime.value || r.value == resolutionTime)
  {
    if closeTime.Some? && closeTime.value != 0 then
      Some(if closeTime.value < resolutionTime then closeTime.value else resolutionTime)
    else closeTime
  }

  /** `probabilityInt / 100` when a probability was given. */
  function ResolutionProbability(probabilityInt: Option<int>): (r: Option<real>)
    ensures r.Some? <==> probabilityInt.Some?
    ensures r.Some? ==> r.value * 100.0 == probabilityInt.value as real
  {
    match probabilityInt
    case Some(p) => Some(p as real / 100.0)
    case None => None
  }

  /** `liquidityPayouts.map(p => ({ ...p, deposit: p.payout }))` */
  function WithPayoutAsDeposit(ps: seq<Payout>): (r: seq<Payout>)
  {
    seq(|ps|, i requires 0 <= i < |ps| => Payout(ps[i].userId, ps[i].payout, Some(ps[i].payout)))
  }

  /** Re-marking the liquidity entries keeps every sum of payouts, and makes each user's deposits equal to their payouts. */
  lemma {:induction false} WithPayoutAsDepositSums(ps: seq<Payout>, u: string)
    ensures Total(WithPayoutAsDeposit(ps)) == Total(ps)
    ensures UserTotal(WithPayoutAsDeposit(ps), u) == UserTotal(ps, u)
    ensures UserDeposits(WithPayoutAsDeposit(ps), u) == UserTotal(ps, u)
    decreases |ps|
  {
    if ps != [] {
      var ps' := ps[..|ps| - 1];
      assert WithPayoutAsDeposit(ps)[..|ps| - 1] == WithPayoutAsDeposit(ps');
      WithPayoutAsDepositSums(ps', u);
    }
  }

  /**
   * `getDataAndPayoutInfo` past its reads: the creator's entry (its whole
   * payout counts as a deposit), then the liquidity entries (deposit equal
   * to payout), then the trader entries as computed; the loan payouts come
   * after all of them.
   */
  function GetDataAndPayoutInfo(c: Contract, probabilityInt: Option<int>, computed: CalculatedPayouts): (info: PayoutInfo)
    ensures info.payouts == info.payoutsWithoutLoans + computed.loanPayouts
    ensures info.creatorPayout == computed.creatorPayout && info.collectedFees == computed.collectedFees
    ensures info.resolutionProbability == ResolutionProbability(probabilityInt)
  {
    var creator := [Payout(c.creatorId, computed.creatorPayout, Some(computed.creatorPayout))];
    var withoutLoans := creator + WithPayoutAsDeposit(computed.liquidityPayouts) + computed.traderPayouts;
    PayoutInfo(withoutLoans, computed.creatorPayout, computed.collectedFees, ResolutionProbability(probabilityInt),
               withoutLoans + computed.loanPayouts)
  }

  /**
   * The layout of the list without loans: the creator first, each liquidity
   * provider with its payout as deposit, then the traders unchanged.
   */
  lemma PayoutInfoLayout(c: Contract, probabilityInt: Option<int>, computed: CalculatedPayouts)
    ensures var w := GetDataAndPayoutInfo(c, probabilityInt, computed).payoutsWithoutLoans;
            && |w| == 1 + |computed.liquidityPayouts| + |computed.traderPayouts|
            && w[0] == Payout(c.creatorId, computed.creatorPayout, Some(computed.creatorPayout))
            && (forall i :: 0 <= i < |computed.liquidityPayouts| ==>
                  w[1 + i] == Payout(computed.liquidityPayouts[i].userId, computed.liquidityPayouts[i].payout,
                                     Some(computed.liquidityPayouts[i].payout)))
            && w[1 + |computed.liquidityPayouts|..] == computed.traderPayouts
  {
  }

  /**
   * Everything calculated is paid: the total of the payout list is the
   * creator's payout plus the liquidity, trader and loan totals, and a
   * user's deposits count the creator payout and liquidity payouts in full.
   */
  lemma PayoutInfoTotals(c: Contract, probabilityInt: Option<int>, computed: CalculatedPayouts, u: string)
    ensures var ps := GetDataAndPayoutInfo(c, probabilityInt, computed).payouts;
            && Total(ps) == computed.creatorPayout + Total(computed.liquidityPayouts)
                            + Total(computed.traderPayouts) + Total(computed.loanPayouts)
            && UserTotal(ps, u) == (if u == c.creatorId then computed.creatorPayout else 0)
                                   + UserTotal(computed.liquidityPayouts, u)
                                   + UserTotal(computed.traderPayouts, u) + UserTotal(computed.loanPayouts, u)
            && UserDeposits(ps, u) == (if u == c.creatorId then computed.creatorPayout else 0)
                                      + UserTotal(computed.liquidityPayouts, u)
                                      + UserDeposits(computed.traderPayouts, u) + UserDeposits(computed.loanPayouts, u)
  {
    var creator := [Payout(c.creatorId, computed.creatorPayout, Some(computed.creatorPayout))];
    var liquidity := WithPayoutAsDeposit(computed.liquidityPayouts);
    var withoutLoans := creator + liquidity + computed.traderPayouts;
    assert creator[..0] == [];
    WithPayoutAsDepositSums(computed.liquidityPayouts, u);
    SumsConcat(creator, liquidity, u);
    SumsConcat(creator + liquidity, computed.traderPayouts, u);
    SumsConcat(withoutLoans, computed.loanPayouts, u);
  }

  /** An answer counts as resolved when its `resolution` is truthy. */
  predicate AnswerResolved(a: Answer)
  {
    Truthy(a.resolution)
  }

  /** `answers.filter(a => a.id !== answerId).every(a => a.resolution)` */
  predicate OthersResolved(answers: seq<Answer>, answerId: string)
  {
    forall i :: 0 <= i < |answers| && answers[i].id != answerId ==> AnswerResolved(answers[i])
  }

  /** `resolutionProbability ?? (outcome === 'YES' ? 1 : outcome === 'NO' ? 0 : undefined)` */
  function FinalProb(resolutionProbability: Option<real>, outcome: string): (r: Option<real>)
    ensures resolutionProbability.Some? ==> r == resolutionProbability
    ensures resolutionProbability.None? && outcome == "YES" ==> r == Some(1.0)
    ensures resolutionProbability.None? && outcome == "NO" ==> r == Some(0.0)
    ensures resolutionProbability.None? && outcome != "YES" && outcome != "NO" ==> r.None?
  {
    if resolutionProbability.Some? then resolutionProbability
    else if outcome == "YES" then Some(1.0)
    else if outcome == "NO" then Some(0.0)
    else None
  }

  /** The answer-level attributes, with undefined ones dropped (None). */
  datatype AnswerUpdate = AnswerUpdate(
    resolution: string,
    resolutionTime: int,
    resolutionProbability: Option<real>,
    prob: Option<real>,
    resolverId: string)

  /** `{ ...a, ...update }`: the defined attributes replace the answer's, the rest stay. */
  function ApplyAnswerUpdate(a: Answer, u: AnswerUpdate): Answer
  {
    a.(resolution := Some(u.resolution),
       resolutionTime := Some(u.resolutionTime),
       resolutionProbability := if u.resolutionProbability.Some? then u.resolutionProbability else a.resolutionProbability,
       prob := if u.prob.Some? then u.prob.value else a.prob,
       resolverId := Some(u.resolverId))
  }

  /** `answers.map(a => a.id === answerId ? { ...a, ...update } : a)` */
  function MirrorAnswers(answers: seq<Answer>, answerId: string, u: AnswerUpdate): seq<Answer>
  {
    seq(|answers|, i requires 0 <= i < |answers| =>
      if answers[i].id == answerId then ApplyAnswerUpdate(answers[i], u) else answers[i])
  }

  /**
   * The mirrored list keeps length, order and every other answer; each entry
   * with the resolved id keeps its id and receives exactly the answer
   * attributes (an undefined probability leaves the entry's own value).
   */
  lemma MirrorAnswersCorrect(answers: seq<Answer>, answerId: string, u: AnswerUpdate, i: nat)
    requires i < |answers|
    ensures |MirrorAnswers(answers, answerId, u)| == |answers|
    ensures var m := MirrorAnswers(answers, answerId, u)[i];
            && (answers[i].id != answerId ==> m == answers[i])
            && (answers[i].id == answerId ==>
                  && m.id == answerId
                  && m.resolution == Some(u.resolution)
                  && m.resolutionTime == Some(u.resolutionTime)
                  && m.resolverId == Some(u.resolverId)
                  && m.resolutionProbability == (if u.resolutionProbability.Some? then u.resolutionProbability
                                                 else answers[i].resolutionProbability)
                  && m.prob == (if u.prob.Some? then u.prob.value else answers[i].prob))
  {
  }

  /** The contract-level resolution attributes, with undefined ones dropped (None). */
  datatype ResolutionFields = ResolutionFields(
    isResolved: bool,
    resolution: string,
    resolutionValue: Option<real>,
    resolutionTime: int,
    closeTime: Option<int>,
    resolutionProbability: Option<real>,
    resolutions: Option<map<string, real>>,
    collectedFees: int,
    resolverId: string,
    subsidyPool: int)

  /**
   * `updatedAttrs`: the resolution attributes (absent when a multi-answer
   * market stays open) and the mirrored answer list (multi-answer only).
   */
  datatype ContractUpdate = ContractUpdate(fields: Option<ResolutionFields>, answers: Option<seq<Answer>>)

  /** `{ ...contract, ...updatedAttrs }` */
  function ApplyContractUpdate(c: Contract, u: ContractUpdate): Contract
  {
    var c1 :=
      match u.fields
      case None => c
      case Some(f) =>
        c.(isResolved := f.isResolved,
           resolution := Some(f.resolution),
           resolutionValue := if f.resolutionValue.Some? then f.resolutionValue else c.resolutionValue,
           resolutionTime := Some(f.resolutionTime),
           closeTime := if f.closeTime.Some? then f.closeTime else c.closeTime,
           resolutionProbability := if f.resolutionProbability.Some? then f.resolutionProbability else c.resolutionProbability,
           resolutions := if f.resolutions.Some? then f.resolutions else c.resolutions,
           collectedFees := f.collectedFees,
           resolverId := Some(f.resolverId),
           subsidyPool := f.subsidyPool);
    match u.answers
    case None => c1
    case Some(answers) => c1.(answers := answers)
  }

  /** Whether this is a per-answer resolution of a multiple-choice market. */
  predicate IsAnswerResolution(c: Contract, params: ResolutionParams)
  {
    c.mechanism == MultiChoiceMechanism && Truthy(params.answerId)
  }

  /** The attributes written for the whole market before the multi-answer rule applies. */
  function BaseFields(c: Contract, resolverId: string, params: ResolutionParams, resolutionTime: int, info: PayoutInfo): ResolutionFields
  {
    ResolutionFields(true, params.outcome, params.value, resolutionTime, NewCloseTime(c.closeTime, resolutionTime),
                     info.resolutionProbability, params.resolutions, info.collectedFees, resolverId, 0)
  }

  /** `updateAnswerAttrs` */
  function AnswerAttrs(resolverId: string, params: ResolutionParams, resolutionTime: int, info: PayoutInfo): AnswerUpdate
  {
    AnswerUpdate(params.outcome, resolutionTime, info.resolutionProbability,
                 FinalProb(info.resolutionProbability, params.outcome), resolverId)
  }

  /** The contract update and answer update `resolveMarketHelper` computes. */
  function ResolutionUpdates(c: Contract, resolverId: string, params: ResolutionParams, resolutionTime: int,
                             info: PayoutInfo): (ContractUpdate, Option<AnswerUpdate>)
  {
    var base := BaseFields(c, resolverId, params, resolutionTime, info);
    if IsAnswerResolution(c, params) then
      var answerId := params.answerId.value;
      var au := AnswerAttrs(resolverId, params, resolutionTime, info);
      var fields := if OthersResolved(c.answers, answerId) then Some(base.(resolution := "MKT")) else None;
      (ContractUpdate(fields, Some(MirrorAnswers(c.answers, answerId, au))), Some(au))
    else
      (ContractUpdate(Some(base), None), None)
  }

  /**
   * A per-answer resolution resolves the whole market, as `MKT`, exactly
   * when every other answer is already resolved; it always carries the
   * mirrored answers and an answer update with the fallback probability.
   */
  lemma AnswerResolutionRollsUp(c: Contract, resolverId: string, params: ResolutionParams, resolutionTime: int,
                                info: PayoutInfo)
    requires IsAnswerResolution(c, params)
    ensures var (u, au) := ResolutionUpdates(c, resolverId, params, resolutionTime, info);
            && (u.fields.Some? <==> OthersResolved(c.answers, params.answerId.value))
            && (u.fields.Some? ==> u.fields.value.resolution == "MKT" && u.fields.value.isResolved)
            && u.answers == Some(MirrorAnswers(c.answers, params.answerId.value, au.value))
            && au.Some? && au.value.resolution == params.outcome
            && au.value.prob == FinalProb(info.resolutionProbability, params.outcome)
            && ApplyContractUpdate(c, u).isResolved == (c.isResolved || OthersResolved(c.answers, params.answerId.value))
  {
  }

  /** Any other resolution resolves the whole market with the given outcome and touches no answer. */
  lemma MarketResolutionFields(c: Contract, resolverId: string, params: ResolutionParams, resolutionTime: int,
                               info: PayoutInfo)
    requires !IsAnswerResolution(c, params)
    ensures var (u, au) := ResolutionUpdates(c, resolverId, params, resolutionTime, info);
            && au.None? && u.answers.None?
            && u.fields.Some?
            && var r := ApplyContractUpdate(c, u);
               && r.isResolved && r.resolution == Some(params.outcome)
               && r.resolutionTime == Some(resolutionTime) && r.resolverId == Some(resolverId)
               && r.subsidyPool == 0 && r.collectedFees == info.collectedFees
               && r.closeTime == NewCloseTime(c.closeTime, resolutionTime)
               && r.resolutionProbability == (if info.resolutionProbability.Some? then info.resolutionProbability
                                              else c.resolutionProbability)
               && r.resolutionValue == (if params.value.Some? then params.value else c.resolutionValue)
               && r.resolutions == (if params.resolutions.Some? then params.resolutions else c.resolutions)
               && r.answers == c.answers
  {
  }

  /**
   * Resolving answer A of a three-answer market leaves the market open
   * while B or C is unresolved; once B and C are resolved, resolving A
   * resolves the market as `MKT`.
   */
  lemma ThreeAnswerMarket(c: Contract, resolverId: string, params: ResolutionParams, resolutionTime: int,
                          info: PayoutInfo)
    requires IsAnswerResolution(c, params) && !c.isResolved
    requires |c.answers| == 3 && c.answers[0].id == params.answerId.value
    requires c.answers[1].id != params.answerId.value && c.answers[2].id != params.answerId.value
    ensures var r := ApplyContractUpdate(c, ResolutionUpdates(c, resolverId, params, resolutionTime, info).0);
            && (!AnswerResolved(c.answers[1]) || !AnswerResolved(c.answers[2]) ==> !r.isResolved)
            && (AnswerResolved(c.answers[1]) && AnswerResolved(c.answers[2]) ==>
                  r.isResolved && r.resolution == Some("MKT"))
  {
    AnswerResolutionRollsUp(c, resolverId, params, resolutionTime, info);
  }

  /** The negative-payout threshold: -500 for markets with at most two bettors, -10000 otherwise. */
  function NegPayoutThreshold(uniqueBettorCount: int): (t: int)
    ensures uniqueBettorCount <= 2 ==> t == -500
    ensures uniqueBettorCount > 2 ==> t == -10000
  {
    if uniqueBettorCount <= 2 then -500 else -10000
  }

  /** `Object.values(groupPayoutsByUser(payouts)).filter(p => p <= threshold).length > 0` */
  predicate HasLargeNegativePayout(payouts: seq<Payout>, threshold: int)
  {
    exists u :: u in GroupByUser(payouts) && GroupByUser(payouts)[u] <= threshold
  }

  /** The anti-exploit guard: a non-admin `CANCEL` with a large negative grouped payout is refused. */
  predicate RejectsCancel(outcome: string, isAdmin: bool, payouts: seq<Payout>, uniqueBettorCount: int)
  {
    outcome == "CANCEL" && !isAdmin && HasLargeNegativePayout(payouts, NegPayoutThreshold(uniqueBettorCount))
  }

  /**
   * The guard refuses exactly the non-admin cancellations in which some
   * user's summed payout (over all of that user's entries, loans included)
   * is at or below the threshold.
   */
  lemma RejectsCancelIff(outcome: string, isAdmin: bool, payouts: seq<Payout>, uniqueBettorCount: int)
    ensures RejectsCancel(outcome, isAdmin, payouts, uniqueBettorCount) <==>
      && outcome == "CANCEL" && !isAdmin
      && exists i :: 0 <= i < |payouts| && UserTotal(payouts, payouts[i].userId) <= NegPayoutThreshold(uniqueBettorCount)
  {
    var t := NegPayoutThreshold(uniqueBettorCount);
    if HasLargeNegativePayout(payouts, t) {
      var u :| u in GroupByUser(payouts) && GroupByUser(payouts)[u] <= t;
      var i :| 0 <= i < |payouts| && payouts[i].userId == u;
      assert UserTotal(payouts, payouts[i].userId) <= t;
    }
    if exists i :: 0 <= i < |payouts| && UserTotal(payouts, payouts[i].userId) <= t {
      var i :| 0 <= i < |payouts| && UserTotal(payouts, payouts[i].userId) <= t;
      assert payouts[i].userId in Users(payouts);
      assert GroupByUser(payouts)[payouts[i].userId] <= t;
    }
  }

  /**
   * On a market with two bettors, a user owing 501 blocks a non-admin
   * cancellation; one owing 499 does not; an admin is never blocked.
   */
  lemma CancelGuardExamples(u: string)
    ensures RejectsCancel("CANCEL", false, [Payout(u, -501, None)], 2)
    ensures !RejectsCancel("CANCEL", false, [Payout(u, -499, None)], 2)
    ensures !RejectsCancel("CANCEL", true, [Payout(u, -501, None)], 2)
  {
    var owes501, owes499 := [Payout(u, -501, None)], [Payout(u, -499, None)];
    assert owes501[..0] == [] && owes499[..0] == [];
    assert UserTotal(owes501, u) == -501 && UserTotal(owes499, u) == -499;
    RejectsCancelIff("CANCEL", false, owes501, 2);
    RejectsCancelIff("CANCEL", false, owes499, 2);
    assert UserTotal(owes501, owes501[0].userId) <= NegPayoutThreshold(2);
  }

  /** The errors resolution can end with. */
  datatype ResolveError =
    | NegativePayoutsTooLarge   // 403 from the guard
    | ContractNotFound          // the market document to update does not exist
    | AnswerNotFound            // the answer document to update does not exist

  /** The market and answer documents of the document store. */
  class MarketDocs {
    var contracts: map<string, Contract>
    var answers: map<(string, string), Answer>

    constructor (contracts: map<string, Contract>, answers: map<(string, string), Answer>)
      ensures this.contracts == contracts && this.answers == answers
    {
      this.contracts := contracts;
      this.answers := answers;
    }

    /** `contractDoc.update(updatedAttrs)`; fails when the document does not exist. */
    method UpdateContract(id: string, u: ContractUpdate) returns (ok: bool)
      modifies this
      ensures ok == (id in old(contracts))
      ensures ok ==> contracts == old(contracts)[id := ApplyContractUpdate(old(contracts)[id], u)]
      ensures !ok ==> contracts == old(contracts)
      ensures answers == old(answers)
    {
      ok := id in contracts;
      if ok {
        contracts := contracts[id := ApplyContractUpdate(contracts[id], u)];
      }
    }

    /** `answerDoc.update(updateAnswerAttrs)` on `contracts/{id}/answersCpmm/{answerId}`. */
    method UpdateAnswer(contractId: string, answerId: string, u: AnswerUpdate) returns (ok: bool)
      modifies this
      ensures ok == ((contractId, answerId) in old(answers))
      ensures ok ==> answers == old(answers)[(contractId, answerId) := ApplyAnswerUpdate(old(answers)[(contractId, answerId)], u)]
      ensures !ok ==> answers == old(answers)
      ensures contracts == old(contracts)
    {
      ok := (contractId, answerId) in answers;
      if ok {
        answers := answers[(contractId, answerId) := ApplyAnswerUpdate(answers[(contractId, answerId)], u)];
      }
    }
  }

  /** The ledger records a successful resolution appends, in order. */
  function SettlementTxns(accounts: map<string, Account>, txns: seq<Txn>, c: Contract, params: ResolutionParams,
                          info: PayoutInfo, payoutStartTime: int, failing: set<nat>, houseId: string): seq<Txn>
  {
    var chunks := Chunk(Merge(info.payouts));
    var done := Committed(accounts, chunks, failing, |chunks|);
    PayoutTxns(done, PayoutRun(c.id, params.answerId, payoutStartTime)) + ClawbackTxns(txns, c, params, houseId)
  }

  /** The clawback record of a whole-market `CANCEL`, computed from the ledger before the payouts; none otherwise. */
  function ClawbackTxns(txns: seq<Txn>, c: Contract, params: ResolutionParams, houseId: string): seq<Txn>
  {
    if !Truthy(params.answerId) && params.outcome == "CANCEL"
    then [ClawbackTxn(c.creatorId, houseId, c.id, BonusTotal(txns, c.id))] else []
  }

  /** The accounts after a successful resolution: the committed payouts credited, then the clawback run. */
  function SettledAccounts(accounts: map<string, Account>, txns: seq<Txn>, c: Contract, params: ResolutionParams,
                           info: PayoutInfo, failing: set<nat>, houseId: string): map<string, Account>
  {
    var chunks := Chunk(Merge(info.payouts));
    TransferAll(CreditAll(accounts, Committed(accounts, chunks, failing, |chunks|)), ClawbackTxns(txns, c, params, houseId))
  }

  /**
   * What a successful resolution does to one user: the balance rises by
   * the user's committed payouts and, on a whole-market `CANCEL`, the
   * creator's balance pays back the market's bettor bonuses; deposits rise
   * by the committed deposits only.
   */
  lemma SettlementBalances(accounts: map<string, Account>, txns: seq<Txn>, c: Contract, params: ResolutionParams,
                           info: PayoutInfo, failing: set<nat>, houseId: string, u: string)
    ensures SettledAccounts(accounts, txns, c, params, info, failing, houseId).Keys == accounts.Keys
    ensures u in accounts ==>
      var chunks := Chunk(Merge(info.payouts));
      var done := Committed(accounts, chunks, failing, |chunks|);
      var clawedBack := if u == c.creatorId && !Truthy(params.answerId) && params.outcome == "CANCEL"
                        then BonusTotal(txns, c.id) else 0;
      SettledAccounts(accounts, txns, c, params, info, failing, houseId)[u]
        == Account(accounts[u].balance + UserTotal(done, u) - clawedBack,
                   accounts[u].totalDeposits + UserDeposits(done, u))
  {
    var chunks := Chunk(Merge(info.payouts));
    var done := Committed(accounts, chunks, failing, |chunks|);
    CreditAllEffect(accounts, done, u);
    ClawbackTxnsEffect(CreditAll(accounts, done), txns, c, params, houseId, u);
  }

  /** Running the clawback records debits only the creator, and only on a whole-market `CANCEL`. */
  lemma ClawbackTxnsEffect(credited: map<string, Account>, txns: seq<Txn>, c: Contract, params: ResolutionParams,
                           houseId: string, u: string)
    ensures TransferAll(credited, ClawbackTxns(txns, c, params, houseId)).Keys == credited.Keys
    ensures u in credited ==>
      TransferAll(credited, ClawbackTxns(txns, c, params, houseId))[u]
        == Account(credited[u].balance
                   - (if u == c.creatorId && !Truthy(params.answerId) && params.outcome == "CANCEL"
                      then BonusTotal(txns, c.id) else 0),
                   credited[u].totalDeposits)
  {
    var clawback := ClawbackTxns(txns, c, params, houseId);
    if clawback != [] {
      assert clawback[..0] == [];
      ClawbackDebitsCreator(credited, c.creatorId, houseId, c.id, BonusTotal(txns, c.id), u);
    }
  }

  /**
   * The ledger half of a resolution: distribute the payouts, then, when the
   * whole market (not one answer) was resolved, claw back its bettor
   * bonuses on `CANCEL`.
   */
  method SettleResolution(l: Ledger, c: Contract, params: ResolutionParams, info: PayoutInfo,
                          payoutStartTime: int, failingChunks: set<nat>, houseId: string)
    modifies l
    ensures l.txns == old(l.txns) + SettlementTxns(old(l.accounts), old(l.txns), c, params, info,
                                                   payoutStartTime, failingChunks, houseId)
    ensures l.accounts == SettledAccounts(old(l.accounts), old(l.txns), c, params, info, failingChunks, houseId)
  {
    ghost var accounts0, txns0 := l.accounts, l.txns;
    ghost var chunks := Chunk(Merge(info.payouts));
    ghost var done := Committed(accounts0, chunks, failingChunks, |chunks|);
    ghost var run := PayoutRun(c.id, params.answerId, payoutStartTime);
    ghost var paid := PayoutTxns(done, run);
    ghost var clawback := ClawbackTxns(txns0, c, params, houseId);
    PayUsersTransactions(l, info.payouts, c.id, params.answerId, payoutStartTime, failingChunks);
    assert l.txns == txns0 + paid;
    ghost var credited := l.accounts;
    assert credited == CreditAll(accounts0, done);
    if !Truthy(params.answerId) {
      BonusTotalConcat(txns0, paid, c.id);
      PayoutsAreNotBonuses(done, run, c.id);
      assert BonusTotal(l.txns, c.id) == BonusTotal(txns0, c.id);
      UndoUniqueBettorRewardsIfCancelResolution(l, c.id, c.creatorId, params.outcome, houseId);
      if params.outcome == "CANCEL" {
        assert clawback[..0] == [];
        assert l.accounts == TransferAll(credited, clawback);
      }
    }
    assert l.accounts == TransferAll(credited, clawback);
  }

  /**
   * The model of `resolveMarketHelper`. The resolution time, the payout
   * start time, the payout calculator's output, the failing payout chunks
   * and the house account are inputs. A guard refusal writes nothing; a
   * missing market or answer document stops the resolution at that write;
   * otherwise the market (and answer) documents are updated first, then
   * the payouts are distributed, then bonuses are clawed back on a
   * whole-market `CANCEL`, and the merged market is returned.
   */
  method ResolveMarketHelper(docs: MarketDocs, l: Ledger, unresolved: Contract, resolverId: string, isAdmin: bool,
                             params: ResolutionParams, computed: CalculatedPayouts, resolutionTime: int,
                             payoutStartTime: int, failingChunks: set<nat>, houseId: string)
    returns (r: Result<Contract, ResolveError>)
    modifies docs, l
    ensures var info := GetDataAndPayoutInfo(unresolved, params.probabilityInt, computed);
            var (u, au) := ResolutionUpdates(unresolved, resolverId, params, resolutionTime, info);
            var rejected := RejectsCancel(params.outcome, isAdmin, info.payouts, unresolved.uniqueBettorCount);
            var key := (unresolved.id, if params.answerId.Some? then params.answerId.value else "");
            && (rejected ==> r == Err(NegativePayoutsTooLarge))
            && (rejected || unresolved.id !in old(docs.contracts) ==>
                  docs.contracts == old(docs.contracts) && docs.answers == old(docs.answers)
                  && l.accounts == old(l.accounts) && l.txns == old(l.txns))
            && (!rejected && unresolved.id !in old(docs.contracts) ==> r == Err(ContractNotFound))
            && (!rejected && unresolved.id in old(docs.contracts) ==>
                  && docs.contracts == old(docs.contracts)[unresolved.id := ApplyContractUpdate(old(docs.contracts)[unresolved.id], u)]
                  && (au.None? ==> docs.answers == old(docs.answers))
                  && (au.Some? && key !in old(docs.answers) ==>
                        && r == Err(AnswerNotFound) && docs.answers == old(docs.answers)
                        && l.accounts == old(l.accounts) && l.txns == old(l.txns))
                  && (au.Some? && key in old(docs.answers) ==>
                        docs.answers == old(docs.answers)[key := ApplyAnswerUpdate(old(docs.answers)[key], au.value)])
                  && (au.None? || key in old(docs.answers) ==>
                        && r == Ok(ApplyContractUpdate(unresolved, u))
                        && l.txns == old(l.txns) + SettlementTxns(old(l.accounts), old(l.txns), unresolved, params, info,
                                                                  payoutStartTime, failingChunks, houseId)
                        && l.accounts == SettledAccounts(old(l.accounts), old(l.txns), unresolved, params, info,
                                                         failingChunks, houseId)))
  {
    var newCloseTime := NewCloseTime(unresolved.closeTime, resolutionTime);
    var info := GetDataAndPayoutInfo(unresolved, params.probabilityInt, computed);

    var updatedAttrs: Option<ResolutionFields> :=
      Some(ResolutionFields(true, params.outcome, params.value, resolutionTime, newCloseTime,
                            info.resolutionProbability, params.resolutions, info.collectedFees, resolverId, 0));
    var updatedAnswers: Option<seq<Answer>> := None;
    var updateAnswerAttrs: Option<AnswerUpdate> := None;

    if unresolved.mechanism == MultiChoiceMechanism && Truthy(params.answerId) {
      var answerId := params.answerId.value;
      // Only resolve the market once all other answers are resolved.
      if OthersResolved(unresolved.answers, answerId) {
        updatedAttrs := Some(updatedAttrs.value.(resolution := "MKT"));
      } else {
        updatedAttrs := None;
      }
      var finalProb := FinalProb(info.resolutionProbability, params.outcome);
      updateAnswerAttrs := Some(AnswerUpdate(params.outcome, resolutionTime, info.resolutionProbability, finalProb, resolverId));
      updatedAnswers := Some(MirrorAnswers(unresolved.answers, answerId, updateAnswerAttrs.value));
    }
    var update := ContractUpdate(updatedAttrs, updatedAnswers);
    assert (update, updateAnswerAttrs) == ResolutionUpdates(unresolved, resolverId, params, resolutionTime, info);
    var contract := ApplyContractUpdate(unresolved, update);

    assert contract.uniqueBettorCount == unresolved.uniqueBettorCount;
    if RejectsCancel(params.outcome, isAdmin, info.payouts, contract.uniqueBettorCount) {
      return Err(NegativePayoutsTooLarge);
    }

    var ok := docs.UpdateContract(unresolved.id, update);
    if !ok {
      return Err(ContractNotFound);
    }
    if updateAnswerAttrs.Some? {
      ok := docs.UpdateAnswer(unresolved.id, params.answerId.value, updateAnswerAttrs.value);
      if !ok {
        return Err(AnswerNotFound);
      }
    }

    SettleResolution(l, unresolved, params, info, payoutStartTime, failingChunks, houseId);
    return Ok(contract);
  }
}

=== FILE: send_mana.dfy ===
/**
 * The managram endpoint `sendMana`: a chain of guards, checked in order,
 * then one independent payment record per recipient, each of which may
 * fail on its own without affecting the others.
 */
module SendMana {
  import opened Common
  import opened Ledger
  import opened Manalink

  /** Why a managram was refused, in the order the guards run. */
  datatype SendError =
    | MessageTooLong        // 400
    | BelowMinimumAmount    // 400: only admins may send less than 10
    | SendToSelf            // 400
    | NoRecipients          // 400
    | SenderNotFound        // 404
    | InsufficientBalance   // 403
    | NotEligible           // 403: the sending-rights rule refused

  /** The request body of a managram. */
  datatype ManagramRequest = ManagramRequest(amount: int, toIds: seq<string>, message: string, groupId: Option<string>)

  /**
   * What the guards read besides the request: the comment length limit,
   * the admin ids, the bot usernames, the current time and the sender's
   * portfolio history of the past day.
   */
  datatype Environment = Environment(
    maxCommentLength: nat,
    adminIds: set<string>,
    botUsernames: set<string>,
    now: int,
    history: seq<PortfolioSnapshot>)

  /** The smallest amount a non-admin may send to each recipient. */
  const MinimumAmount: int := 10

  /**
   * The guards of `sendMana` in the handler's order; `users` are the user
   * documents, `history` stands in for what the sending-rights query reads.
   */
  function SendCheck(req: ManagramRequest, fromId: string, users: map<string, User>, env: Environment): (err: Option<SendError>)
    ensures err.None? <==>
      && |req.message| <= env.maxCommentLength
      && (fromId in env.adminIds || req.amount >= MinimumAmount)
      && fromId !in req.toIds
      && req.toIds != []
      && fromId in users
      && users[fromId].balance >= req.amount * |req.toIds|
      && CanSendManaSupa(users[fromId], env.history, env.now, env.botUsernames)
    ensures |req.message| > env.maxCommentLength ==> err == Some(MessageTooLong)
    ensures err == Some(SenderNotFound) ==> fromId !in users && req.toIds != [] && fromId !in req.toIds
    ensures err == Some(InsufficientBalance) ==> fromId in users && users[fromId].balance < req.amount * |req.toIds|
    ensures err == Some(NotEligible) ==>
      && fromId in users && users[fromId].balance >= req.amount * |req.toIds|
      && !CanSendManaSupa(users[fromId], env.history, env.now, env.botUsernames)
  {
    if |req.message| > env.maxCommentLength then Some(MessageTooLong)
    else if fromId !in env.adminIds && req.amount < MinimumAmount then Some(BelowMinimumAmount)
    else if fromId in req.toIds then Some(SendToSelf)
    else if |req.toIds| <= 0 then Some(NoRecipients)
    else if fromId !in users then Some(SenderNotFound)
    else if users[fromId].balance < req.amount * |req.toIds| then Some(InsufficientBalance)
    else if !CanSendManaSupa(users[fromId], env.history, env.now, env.botUsernames) then Some(NotEligible)
    else None
  }

  /** `passedGroupId ? passedGroupId : crypto.randomUUID()`, the fresh id being an input. */
  function GroupIdFor(passed: Option<string>, freshId: string): (g: string)
    ensures passed.Some? && passed.value != "" ==> g == passed.value
    ensures passed.None? || passed.value == "" ==> g == freshId
  {
    if passed.Some? && passed.value != "" then passed.value else freshId
  }

  /** The description as the handler builds it: it names the sender's id where the recipient's belongs. */
  function AsWrittenPaymentDescription(amount: int, fromUsername: string, fromId: string, toId: string): Description
  {
    ManaPaymentOf(amount, fromUsername, fromId)
  }

  /** The description naming the amount, the sender's username and the recipient. */
  function PaymentDescription(amount: int, fromUsername: string, toId: string): Description
  {
    ManaPaymentOf(amount, fromUsername, toId)
  }

  /**
   * Two recipients of one managram get identical as-written descriptions,
   * and neither description names its own recipient.
   */
  lemma AsWrittenDescriptionNamesSender(amount: int, fromUsername: string, fromId: string, toA: string, toB: string)
    requires toA != fromId && toB != fromId
    ensures AsWrittenPaymentDescription(amount, fromUsername, fromId, toA)
            == AsWrittenPaymentDescription(amount, fromUsername, fromId, toB)
    ensures AsWrittenPaymentDescription(amount, fromUsername, fromId, toA).toId != toA
  {
  }

  /** The corrected descriptions tell recipients apart: each names its own recipient. */
  lemma DescriptionNamesRecipient(amount: int, fromUsername: string, toA: string, toB: string)
    ensures PaymentDescription(amount, fromUsername, toA).toId == toA
    ensures toA != toB ==> PaymentDescription(amount, fromUsername, toA) != PaymentDescription(amount, fromUsername, toB)
  {
  }

  /** The `MANA_PAYMENT` record sent to one recipient. */
  function PaymentTxn(fromId: string, fromUsername: string, toId: string, req: ManagramRequest, groupId: string): Txn
  {
    Txn(fromId, UserAccount, toId, UserAccount, req.amount, ManaToken, ManaPayment,
        PaymentData(req.message, groupId, "public"), PaymentDescription(req.amount, fromUsername, toId))
  }

  /**
   * The records of the first `n` recipients, in request order, leaving out
   * the recipients whose transaction failed (their indices are in `failing`).
   */
  function Payments(fromId: string, fromUsername: string, req: ManagramRequest, groupId: string,
                    failing: set<nat>, n: nat): seq<Txn>
    requires n <= |req.toIds|
  {
    if n == 0 then []
    else Payments(fromId, fromUsername, req, groupId, failing, n - 1)
         + (if n - 1 in failing then [] else [PaymentTxn(fromId, fromUsername, req.toIds[n - 1], req, groupId)])
  }

  /** The recipients of a list of records. */
  function Recipients(ts: seq<Txn>): (r: seq<string>)
    ensures |r| == |ts| && forall i :: 0 <= i < |ts| ==> r[i] == ts[i].toId
  {
    seq(|ts|, i requires 0 <= i < |ts| => ts[i].toId)
  }

  /**
   * Every record is a public `MANA_PAYMENT` of the requested amount from
   * the sender, with the request's message and the one group id, to a
   * recipient listed in the request whose transaction did not fail.
   */
  lemma {:induction false} PaymentsShape(fromId: string, fromUsername: string, req: ManagramRequest, groupId: string,
                                         failing: set<nat>, n: nat, k: nat)
    requires n <= |req.toIds|
    requires k < |Payments(fromId, fromUsername, req, groupId, failing, n)|
    ensures var t := Payments(fromId, fromUsername, req, groupId, failing, n)[k];
            && t.fromId == fromId && t.fromType == UserAccount && t.toType == UserAccount
            && t.amount == req.amount && t.token == ManaToken && t.category == ManaPayment
            && t.data == PaymentData(req.message, groupId, "public")
            && t.description == PaymentDescription(req.amount, fromUsername, t.toId)
            && exists j :: 0 <= j < n && j !in failing && req.toIds[j] == t.toId
    decreases n
  {
    var prev := Payments(fromId, fromUsername, req, groupId, failing, n - 1);
    if k < |prev| {
      PaymentsShape(fromId, fromUsername, req, groupId, failing, n - 1, k);
    } else {
      assert n - 1 !in failing;
    }
  }

  /** The recipients of appended records follow the recipients before them. */
  lemma RecipientsConcat(a: seq<Txn>, b: seq<Txn>)
    ensures Recipients(a + b) == Recipients(a) + Recipients(b)
  {
  }

  /** The records of the first `n` recipients extend those of the first `n - 1` by at most the `n`-th recipient's record. */
  lemma PaymentsStep(fromId: string, fromUsername: string, req: ManagramRequest, groupId: string,
                     failing: set<nat>, n: nat)
    requires 0 < n <= |req.toIds|
    ensures var prev := Recipients(Payments(fromId, fromUsername, req, groupId, failing, n - 1));
            Recipients(Payments(fromId, fromUsername, req, groupId, failing, n))
              == prev + (if n - 1 in failing then [] else [req.toIds[n - 1]])
  {
    var prev := Payments(fromId, fromUsername, req, groupId, failing, n - 1);
    var tail := if n - 1 in failing then [] else [PaymentTxn(fromId, fromUsername, req.toIds[n - 1], req, groupId)];
    RecipientsConcat(prev, tail);
  }

  /**
   * One record per recipient that did not fail: the recipients of the
   * records are the listed recipients minus the failed ones, with
   * repetition, so a user listed twice is paid twice.
   */
  lemma {:induction false} PaymentsRecipients(fromId: string, fromUsername: string, req: ManagramRequest, groupId: string,
                                              failing: set<nat>, n: nat)
    requires n <= |req.toIds|
    ensures multiset(Recipients(Payments(fromId, fromUsername, req, groupId, failing, n))) <= multiset(req.toIds[..n])
    decreases n
  {
    if n > 0 {
      PaymentsRecipients(fromId, fromUsername, req, groupId, failing, n - 1);
      PaymentsStep(fromId, fromUsername, req, groupId, failing, n);
      assert req.toIds[..n] == req.toIds[..n - 1] + [req.toIds[n - 1]];
    }
  }

  /** A list without repeated entries holds each value at most once. */
  lemma {:induction false} DistinctCountsAtMostOne(s: seq<string>, v: string)
    requires forall i, j :: 0 <= i < j < |s| ==> s[i] != s[j]
    ensures multiset(s)[v] <= 1
    decreases |s|
  {
    if s != [] {
      var s' := s[..|s| - 1];
      assert s == s' + [s[|s| - 1]];
      DistinctCountsAtMostOne(s', v);
      if s[|s| - 1] == v {
        assert v !in s';
      }
    }
  }

  /** When no recipient is listed twice, each recipient gets at most one record. */
  lemma DistinctRecipientsPaidOnce(fromId: string, fromUsername: string, req: ManagramRequest, groupId: string,
                                   failing: set<nat>, v: string)
    requires forall i, j :: 0 <= i < j < |req.toIds| ==> req.toIds[i] != req.toIds[j]
    ensures multiset(Recipients(Payments(fromId, fromUsername, req, groupId, failing, |req.toIds|)))[v] <= 1
  {
    PaymentsRecipients(fromId, fromUsername, req, groupId, failing, |req.toIds|);
    assert req.toIds[..|req.toIds|] == req.toIds;
    DistinctCountsAtMostOne(req.toIds, v);
  }

  /** With no failures, the records go to exactly the listed recipients, in order. */
  lemma {:induction false} PaymentsAllDelivered(fromId: string, fromUsername: string, req: ManagramRequest, groupId: string,
                                                failing: set<nat>, n: nat)
    requires n <= |req.toIds|
    requires forall j :: 0 <= j < n ==> j !in failing
    ensures Recipients(Payments(fromId, fromUsername, req, groupId, failing, n)) == req.toIds[..n]
    decreases n
  {
    if n > 0 {
      PaymentsAllDelivered(fromId, fromUsername, req, groupId, failing, n - 1);
      PaymentsStep(fromId, fromUsername, req, groupId, failing, n);
      assert req.toIds[..n] == req.toIds[..n - 1] + [req.toIds[n - 1]];
    }
  }

  /** At most one record per listed recipient. */
  lemma {:induction false} PaymentsCount(fromId: string, fromUsername: string, req: ManagramRequest, groupId: string,
                                         failing: set<nat>, n: nat)
    requires n <= |req.toIds|
    ensures |Payments(fromId, fromUsername, req, groupId, failing, n)| <= n
    decreases n
  {
    if n > 0 {
      PaymentsCount(fromId, fromUsername, req, groupId, failing, n - 1);
    }
  }

  /** Records that all move the same amount sum to that amount times their number. */
  lemma {:induction false} UniformSum(ts: seq<Txn>, amount: int)
    requires forall k :: 0 <= k < |ts| ==> ts[k].amount == amount
    ensures SumAmounts(ts) == amount * |ts|
    decreases |ts|
  {
    if ts != [] {
      var ts' := ts[..|ts| - 1];
      UniformSum(ts', amount);
      assert amount * |ts| == amount * |ts'| + amount;
    }
  }

  /** The records move `amount` each, so at most `amount` times the number of recipients. */
  lemma PaymentsTotal(fromId: string, fromUsername: string, req: ManagramRequest, groupId: string,
                      failing: set<nat>, n: nat)
    requires n <= |req.toIds|
    ensures var ps := Payments(fromId, fromUsername, req, groupId, failing, n);
            && |ps| <= n
            && SumAmounts(ps) == req.amount * |ps|
  {
    var ps := Payments(fromId, fromUsername, req, groupId, failing, n);
    PaymentsCount(fromId, fromUsername, req, groupId, failing, n);
    forall k | 0 <= k < |ps| ensures ps[k].amount == req.amount {
      PaymentsShape(fromId, fromUsername, req, groupId, failing, n, k);
    }
    UniformSum(ps, req.amount);
  }

  /**
   * The balance effect of the records: the sender (never a recipient, by
   * the self-send guard) loses the amount once per record, and every other
   * user gains the amount once per record naming them.
   */
  lemma PaymentsNetFlow(fromId: string, fromUsername: string, req: ManagramRequest, groupId: string,
                        failing: set<nat>, n: nat, u: string)
    requires n <= |req.toIds| && fromId !in req.toIds
    ensures var ps := Payments(fromId, fromUsername, req, groupId, failing, n);
            NetFlow(ps, u) == if u == fromId then -(req.amount * |ps|)
                              else req.amount * multiset(Recipients(ps))[u]
  {
    if u == fromId {
      SenderNetFlow(fromId, fromUsername, req, groupId, failing, n);
    } else {
      RecipientNetFlow(fromId, fromUsername, req, groupId, failing, n, u);
    }
  }

  /** The sender loses the amount once per record. */
  lemma {:induction false} SenderNetFlow(fromId: string, fromUsername: string, req: ManagramRequest, groupId: string,
                                         failing: set<nat>, n: nat)
    requires n <= |req.toIds| && fromId !in req.toIds
    ensures var ps := Payments(fromId, fromUsername, req, groupId, failing, n);
            NetFlow(ps, fromId) == -(req.amount * |ps|)
    decreases n
  {
    if n > 0 {
      var prev := Payments(fromId, fromUsername, req, groupId, failing, n - 1);
      SenderNetFlow(fromId, fromUsername, req, groupId, failing, n - 1);
      if n - 1 !in failing {
        var t := PaymentTxn(fromId, fromUsername, req.toIds[n - 1], req, groupId);
        assert t.toId != fromId;
        NetFlowSnoc(prev, t, fromId);
        ScaleStep(req.amount, |prev|);
      } else {
        assert Payments(fromId, fromUsername, req, groupId, failing, n) == prev;
      }
    }
  }

  /** Any other user gains the amount once per record naming them. */
  lemma {:induction false} RecipientNetFlow(fromId: string, fromUsername: string, req: ManagramRequest, groupId: string,
                                            failing: set<nat>, n: nat, u: string)
    requires n <= |req.toIds| && u != fromId
    ensures var ps := Payments(fromId, fromUsername, req, groupId, failing, n);
            NetFlow(ps, u) == req.amount * multiset(Recipients(ps))[u]
    decreases n
  {
    if n > 0 {
      var prev := Payments(fromId, fromUsername, req, groupId, failing, n - 1);
      RecipientNetFlow(fromId, fromUsername, req, groupId, failing, n - 1, u);
      if n - 1 !in failing {
        var t := PaymentTxn(fromId, fromUsername, req.toIds[n - 1], req, groupId);
        assert Payments(fromId, fromUsername, req, groupId, failing, n) == prev + [t];
        RecipientFlowStep(prev, t, u, req.amount);
      } else {
        assert Payments(fromId, fromUsername, req, groupId, failing, n) == prev;
      }
    } else {
      assert Recipients([]) == [];
    }
  }

  /** A record to `u` (not from `u`) adds the amount once to `u`'s flow and once to `u`'s count. */
  lemma RecipientFlowStep(prev: seq<Txn>, t: Txn, u: string, amount: int)
    requires NetFlow(prev, u) == amount * multiset(Recipients(prev))[u]
    requires t.fromId != u && t.toType == UserAccount && t.amount == amount
    ensures NetFlow(prev + [t], u) == amount * multiset(Recipients(prev + [t]))[u]
  {
    NetFlowSnoc(prev, t, u);
    RecipientsConcat(prev, [t]);
    var count := multiset(Recipients(prev))[u];
    if t.toId == u {
      assert multiset(Recipients(prev + [t]))[u] == count + 1;
      ScaleStep(amount, count);
    } else {
      assert multiset(Recipients(prev + [t]))[u] == count;
    }
  }

  /** One more record moves the amount once more. */
  lemma ScaleStep(amount: int, count: int)
    ensures amount * (count + 1) == amount * count + amount
  {
  }

  /**
   * After an accepted managram, the sender's balance has fallen by the
   * amount times the number of records written, each recipient's balance
   * has risen by the amount for every record naming them, and no user
   * document appears or disappears: whoever is credited has a record.
   */
  lemma ManagramBalances(accounts: map<string, Account>, fromId: string, fromUsername: string, req: ManagramRequest,
                         groupId: string, failing: set<nat>, u: string)
    requires fromId !in req.toIds
    ensures var ps := Payments(fromId, fromUsername, req, groupId, failing, |req.toIds|);
            && TransferAll(accounts, ps).Keys == accounts.Keys
            && (u in accounts ==>
                  TransferAll(accounts, ps)[u]
                    == Account(accounts[u].balance
                               + (if u == fromId then -(req.amount * |ps|)
                                  else req.amount * multiset(Recipients(ps))[u]),
                               accounts[u].totalDeposits))
  {
    var ps := Payments(fromId, fromUsername, req, groupId, failing, |req.toIds|);
    TransferAllEffect(accounts, ps, u);
    PaymentsNetFlow(fromId, fromUsername, req, groupId, failing, |req.toIds|, u);
  }

  /**
   * The balance guard covers every outcome of the fan-out: whichever
   * recipients fail, the records written move no more than the sender's
   * checked balance (for a non-negative amount).
   */
  lemma AcceptedSendIsCovered(req: ManagramRequest, fromId: string, users: map<string, User>, env: Environment,
                              groupId: string, failing: set<nat>)
    requires SendCheck(req, fromId, users, env).None? && req.amount >= 0
    ensures SumAmounts(Payments(fromId, users[fromId].username, req, groupId, failing, |req.toIds|))
            <= users[fromId].balance
  {
    var ps := Payments(fromId, users[fromId].username, req, groupId, failing, |req.toIds|);
    PaymentsTotal(fromId, users[fromId].username, req, groupId, failing, |req.toIds|);
    ScaleMonotone(req.amount, |ps|, |req.toIds|);
  }

  /**
   * When the guard read the same user document the records debit, an
   * accepted managram never drives the sender's balance below zero,
   * whichever recipients' writes fail.
   */
  lemma SenderStaysSolvent(accounts: map<string, Account>, req: ManagramRequest, fromId: string,
                           users: map<string, User>, env: Environment, groupId: string, failing: set<nat>)
    requires SendCheck(req, fromId, users, env).None? && req.amount >= 0
    requires fromId in accounts && accounts[fromId].balance == users[fromId].balance
    ensures var after := TransferAll(accounts, Payments(fromId, users[fromId].username, req, groupId, failing, |req.toIds|));
            fromId in after && after[fromId].balance >= 0
  {
    var ps := Payments(fromId, users[fromId].username, req, groupId, failing, |req.toIds|);
    ManagramBalances(accounts, fromId, users[fromId].username, req, groupId, failing, fromId);
    AcceptedSendIsCovered(req, fromId, users, env, groupId, failing);
    PaymentsTotal(fromId, users[fromId].username, req, groupId, failing, |req.toIds|);
  }

  /** Scaling by a non-negative amount keeps order. */
  lemma ScaleMonotone(amount: int, x: int, y: int)
    requires amount >= 0 && x <= y
    ensures amount * x <= amount * y
  {
    assert amount * y - amount * x == amount * (y - x);
  }

  /**
   * `sendMana`: the guards in order, then one transaction per recipient;
   * a recipient whose transaction fails (its index is in `failing`) gets
   * no record and the others are unaffected. The fresh group id stands in
   * for `crypto.randomUUID()`.
   */
  method SendMana(l: Ledger, users: map<string, User>, env: Environment, fromId: string, req: ManagramRequest,
                  freshGroupId: string, failing: set<nat>)
    returns (err: Option<SendError>)
    requires fromId in users ==> fromId in l.accounts && l.accounts[fromId].balance == users[fromId].balance
    modifies l
    ensures err == SendCheck(req, fromId, users, env)
    ensures err.None? && req.amount >= 0 ==> fromId in l.accounts && l.accounts[fromId].balance >= 0
    ensures err.Some? ==> l.txns == old(l.txns) && l.accounts == old(l.accounts)
    ensures err.None? ==>
      var ps := Payments(fromId, users[fromId].username, req, GroupIdFor(req.groupId, freshGroupId),
                         failing, |req.toIds|);
      l.txns == old(l.txns) + ps && l.accounts == TransferAll(old(l.accounts), ps)
  {
    if |req.message| > env.maxCommentLength {
      return Some(MessageTooLong);
    }
    if fromId !in env.adminIds && req.amount < MinimumAmount {
      return Some(BelowMinimumAmount);
    }
    if fromId in req.toIds {
      return Some(SendToSelf);
    }
    if |req.toIds| <= 0 {
      return Some(NoRecipients);
    }
    if fromId !in users {
      return Some(SenderNotFound);
    }
    var fromUser := users[fromId];
    if fromUser.balance < req.amount * |req.toIds| {
      return Some(InsufficientBalance);
    }
    var canCreate := CanSendManaSupa(fromUser, env.history, env.now, env.botUsernames);
    if !canCreate {
      return Some(NotEligible);
    }
    var groupId := GroupIdFor(req.groupId, freshGroupId);
    ghost var txns0, accounts0 := l.txns, l.accounts;
    for i := 0 to |req.toIds|
      invariant l.txns == txns0 + Payments(fromId, fromUser.username, req, groupId, failing, i)
      invariant l.accounts == TransferAll(accounts0, Payments(fromId, fromUser.username, req, groupId, failing, i))
    {
      ghost var prev := Payments(fromId, fromUser.username, req, groupId, failing, i);
      ghost var next := Payments(fromId, fromUser.username, req, groupId, failing, i + 1);
      if i !in failing {
        var t := PaymentTxn(fromId, fromUser.username, req.toIds[i], req, groupId);
        l.RunTxn(t);
        assert next == prev + [t];
        assert next[..|next| - 1] == prev && next[|next| - 1] == t;
        assert TransferAll(accounts0, next) == Transfer(TransferAll(accounts0, prev), t);
      } else {
        assert next == prev;
      }
    }
    assert SendCheck(req, fromId, users, env).None?;
    if req.amount >= 0 {
      SenderStaysSolvent(accounts0, req, fromId, users, env, groupId, failing);
    }
    return None;
  }

  /** A small managram: the admin rule, the self-send rule and the empty list. */
  lemma SendCheckExamples(users: map<string, User>, env: Environment)
    requires |"hi"| <= env.maxCommentLength && "alice" !in env.adminIds && "root" in env.adminIds
    ensures SendCheck(ManagramRequest(5, ["bob"], "hi", None), "alice", users, env) == Some(BelowMinimumAmount)
    ensures SendCheck(ManagramRequest(5, ["root"], "hi", None), "root", users, env) == Some(SendToSelf)
    ensures SendCheck(ManagramRequest(5, [], "hi", None), "root", users, env) == Some(NoRecipients)
  {
    assert ["root"][0] == "root";
  }
}

=== FILE: settlement.dfy ===
/**
 * Payout distribution and bonus clawback of a market resolution:
 * `payUsersTransactions` (merge, split into chunks of 250, one atomic
 * ledger-insert-plus-balance-increment per chunk, a failing chunk skipped)
 * and `undoUniqueBettorRewardsIfCancelResolution`.
 */
module Settlement {
  import opened Common
  import opened Ledger
  import opened Payouts

  /** The fixed batch size of payout distribution. */
  const PayoutChunkSize: nat := 250

  /** Concatenation of a list of chunks. */
  function Flatten<T>(cs: seq<seq<T>>): seq<T>
  {
    if cs == [] then [] else cs[0] + Flatten(cs[1..])
  }

  /**
   * lodash `chunk(s, 250)`: consecutive pieces of 250 entries, the last one
   * holding what is left; no chunk at all for an empty list.
   */
  function Chunk<T>(s: seq<T>): (cs: seq<seq<T>>)
    ensures Flatten(cs) == s
    ensures forall i :: 0 <= i < |cs| ==> 0 < |cs[i]| <= PayoutChunkSize
    ensures forall i :: 0 <= i < |cs| - 1 ==> |cs[i]| == PayoutChunkSize
    ensures |cs| == (|s| + PayoutChunkSize - 1) / PayoutChunkSize
    decreases |s|
  {
    if |s| <= PayoutChunkSize then (if s == [] then [] else [s])
    else
      var rest := Chunk(s[PayoutChunkSize..]);
      assert ([s[..PayoutChunkSize]] + rest)[1..] == rest;
      [s[..PayoutChunkSize]] + rest
  }

  /** Six hundred entries are paid in three batches of 250, 250 and 100. */
  lemma ChunkSixHundred<T>(s: seq<T>)
    requires |s| == 600
    ensures |Chunk(s)| == 3
    ensures |Chunk(s)[0]| == 250 && |Chunk(s)[1]| == 250 && |Chunk(s)[2]| == 100
  {
    var cs := Chunk(s);
    assert cs[1..][0] == cs[1] && cs[1..][1..] == cs[2..];
    assert cs[2..][0] == cs[2] && cs[2..][1..] == [];
    assert Flatten(cs[2..]) == cs[2];
    assert |Flatten(cs)| == |cs[0]| + |cs[1]| + |cs[2]|;
  }

  /** The parameters every payout record of one distribution shares. */
  datatype PayoutRun = PayoutRun(contractId: string, answerId: Option<string>, payoutStartTime: int)

  /** The `CONTRACT_RESOLUTION_PAYOUT` record written for one merged entry. */
  function PayoutTxn(p: Payout, run: PayoutRun): Txn
  {
    Txn(run.contractId, ContractAccount, p.userId, UserAccount, p.payout, ManaToken,
        ContractResolutionPayout, PayoutData(DepositOf(p), run.payoutStartTime, run.answerId),
        PayoutFor(run.contractId))
  }

  /** The records of one chunk, in chunk order. */
  function PayoutTxns(ps: seq<Payout>, run: PayoutRun): seq<Txn>
  {
    seq(|ps|, i requires 0 <= i < |ps| => PayoutTxn(ps[i], run))
  }

  /** The balance increment of one entry; a user without a document is untouched. */
  function Credit(accounts: map<string, Account>, p: Payout): map<string, Account>
  {
    if p.userId in accounts then
      accounts[p.userId := Account(accounts[p.userId].balance + p.payout,
                                   accounts[p.userId].totalDeposits + DepositOf(p))]
    else accounts
  }

  /** The increments of a list of entries, applied in order. */
  function CreditAll(accounts: map<string, Account>, ps: seq<Payout>): map<string, Account>
  {
    if ps == [] then accounts else Credit(CreditAll(accounts, ps[..|ps| - 1]), ps[|ps| - 1])
  }

  /**
   * Whether chunk `i` commits: the failure oracle does not name it, and
   * every user it increments has a document (an increment of a missing
   * document aborts the whole chunk's transaction).
   */
  predicate ChunkCommits(accounts: map<string, Account>, chunks: seq<seq<Payout>>, i: nat, failing: set<nat>)
    requires i < |chunks|
  {
    i !in failing && forall k :: 0 <= k < |chunks[i]| ==> chunks[i][k].userId in accounts
  }

  /** The entries of the committing chunks among the first `n`, in order. */
  function Committed(accounts: map<string, Account>, chunks: seq<seq<Payout>>, failing: set<nat>, n: nat): seq<Payout>
    requires n <= |chunks|
  {
    if n == 0 then []
    else Committed(accounts, chunks, failing, n - 1)
         + (if ChunkCommits(accounts, chunks, n - 1, failing) then chunks[n - 1] else [])
  }

  /** One more chunk adds its entries when it commits and nothing when it fails. */
  lemma CommittedStep(accounts: map<string, Account>, chunks: seq<seq<Payout>>, failing: set<nat>, i: nat)
    requires i < |chunks|
    ensures ChunkCommits(accounts, chunks, i, failing) ==>
      Committed(accounts, chunks, failing, i + 1) == Committed(accounts, chunks, failing, i) + chunks[i]
    ensures !ChunkCommits(accounts, chunks, i, failing) ==>
      Committed(accounts, chunks, failing, i + 1) == Committed(accounts, chunks, failing, i)
  {
    var prev := Committed(accounts, chunks, failing, i);
    assert prev + [] == prev;
  }

  lemma PayoutTxnsConcat(a: seq<Payout>, b: seq<Payout>, run: PayoutRun)
    ensures PayoutTxns(a + b, run) == PayoutTxns(a, run) + PayoutTxns(b, run)
  {
  }

  lemma {:induction false} CreditAllConcat(accounts: map<string, Account>, a: seq<Payout>, b: seq<Payout>)
    ensures CreditAll(accounts, a + b) == CreditAll(CreditAll(accounts, a), b)
    decreases |b|
  {
    if b == [] {
      assert a + b == a;
    } else {
      assert (a + b)[..|a + b| - 1] == a + b[..|b| - 1];
      CreditAllConcat(accounts, a, b[..|b| - 1]);
    }
  }

  /**
   * Crediting a list of entries creates or removes no account, and raises
   * each account's balance by exactly that user's summed payout and its
   * `totalDeposits` by that user's summed `deposit ?? 0`; an account with
   * no entry is left as it was.
   */
  lemma {:induction false} CreditAllEffect(accounts: map<string, Account>, ps: seq<Payout>, u: string)
    ensures CreditAll(accounts, ps).Keys == accounts.Keys
    ensures u in accounts ==>
      CreditAll(accounts, ps)[u] == Account(accounts[u].balance + UserTotal(ps, u),
                                            accounts[u].totalDeposits + UserDeposits(ps, u))
    decreases |ps|
  {
    if ps != [] {
      CreditAllEffect(accounts, ps[..|ps| - 1], u);
    }
  }

  /** An account with no entry in the list keeps exactly its balance and deposits. */
  lemma UncreditedUnchanged(accounts: map<string, Account>, ps: seq<Payout>, u: string)
    requires u in accounts && u !in Users(ps)
    ensures CreditAll(accounts, ps).Keys == accounts.Keys
    ensures CreditAll(accounts, ps)[u] == accounts[u]
  {
    CreditAllEffect(accounts, ps, u);
    AbsentUserTotal(ps, u);
  }

  /** A ledger prefix is kept: earlier chunks' entries stay where they are. */
  lemma {:induction false} CommittedPrefix(accounts: map<string, Account>, chunks: seq<seq<Payout>>,
                                           failing: set<nat>, n: nat, m: nat)
    requires n <= m <= |chunks|
    ensures Committed(accounts, chunks, failing, n) <= Committed(accounts, chunks, failing, m)
    decreases m - n
  {
    if n < m {
      CommittedPrefix(accounts, chunks, failing, n, m - 1);
    }
  }

  /**
   * Every entry of a committing chunk gets its payout record, whichever
   * other chunks fail: a failure does not stop the later chunks.
   */
  lemma CommittingChunkRecorded(accounts: map<string, Account>, chunks: seq<seq<Payout>>, failing: set<nat>,
                                run: PayoutRun, i: nat, k: nat)
    requires i < |chunks| && k < |chunks[i]|
    requires ChunkCommits(accounts, chunks, i, failing)
    ensures PayoutTxn(chunks[i][k], run) in PayoutTxns(Committed(accounts, chunks, failing, |chunks|), run)
  {
    var before := Committed(accounts, chunks, failing, i);
    var upTo := Committed(accounts, chunks, failing, i + 1);
    assert upTo == before + chunks[i];
    CommittedPrefix(accounts, chunks, failing, i + 1, |chunks|);
    var all := Committed(accounts, chunks, failing, |chunks|);
    assert all[|before| + k] == chunks[i][k];
    assert PayoutTxns(all, run)[|before| + k] == PayoutTxn(chunks[i][k], run);
  }

  lemma {:induction false} FlattenSnoc<T>(cs: seq<seq<T>>)
    requires cs != []
    ensures Flatten(cs) == Flatten(cs[..|cs| - 1]) + cs[|cs| - 1]
    decreases |cs|
  {
    if |cs| == 1 {
      assert cs[1..] == [];
      assert cs[..0] == [];
    } else {
      var rest := cs[1..];
      FlattenSnoc(rest);
      assert rest[..|rest| - 1] == cs[..|cs| - 1][1..];
      assert cs[..|cs| - 1][0] == cs[0];
    }
  }

  lemma {:induction false} ChunkUsersInFlatten(cs: seq<seq<Payout>>, j: nat)
    requires j < |cs|
    ensures Users(cs[j]) <= Users(Flatten(cs))
    decreases |cs|
  {
    UsersConcat(cs[0], Flatten(cs[1..]));
    if j > 0 {
      ChunkUsersInFlatten(cs[1..], j - 1);
    }
  }

  /** When the chunks come from a list without repeated users, no user is in two chunks. */
  lemma {:induction false} ChunksDisjoint(cs: seq<seq<Payout>>, i: nat, j: nat)
    requires i < j < |cs|
    requires DistinctUsers(Flatten(cs))
    ensures Users(cs[i]) !! Users(cs[j])
    decreases |cs|
  {
    DistinctSplit(cs[0], Flatten(cs[1..]));
    if i == 0 {
      ChunkUsersInFlatten(cs[1..], j - 1);
    } else {
      ChunksDisjoint(cs[1..], i - 1, j - 1);
    }
  }

  /** A user that no committing chunk names is owed nothing by the committed entries. */
  lemma {:induction false} CommittedAvoids(accounts: map<string, Account>, chunks: seq<seq<Payout>>,
                                           failing: set<nat>, n: nat, u: string)
    requires n <= |chunks|
    requires forall j :: 0 <= j < n && ChunkCommits(accounts, chunks, j, failing) ==> u !in Users(chunks[j])
    ensures u !in Users(Committed(accounts, chunks, failing, n))
  {
    if n > 0 {
      CommittedAvoids(accounts, chunks, failing, n - 1, u);
      var last := if ChunkCommits(accounts, chunks, n - 1, failing) then chunks[n - 1] else [];
      UsersConcat(Committed(accounts, chunks, failing, n - 1), last);
    }
  }

  /**
   * A failed chunk leaves the accounts of its users exactly as they were:
   * after merging, no other chunk pays them.
   */
  lemma FailedChunkUntouched(accounts: map<string, Account>, payouts: seq<Payout>, failing: set<nat>,
                             i: nat, u: string)
    requires i < |Chunk(Merge(payouts))|
    requires !ChunkCommits(accounts, Chunk(Merge(payouts)), i, failing)
    requires u in Users(Chunk(Merge(payouts))[i]) && u in accounts
    ensures var cs := Chunk(Merge(payouts));
            && CreditAll(accounts, Committed(accounts, cs, failing, |cs|)).Keys == accounts.Keys
            && CreditAll(accounts, Committed(accounts, cs, failing, |cs|))[u] == accounts[u]
  {
    var cs := Chunk(Merge(payouts));
    MergeUsers(payouts);
    forall j | 0 <= j < |cs| && ChunkCommits(accounts, cs, j, failing) ensures u !in Users(cs[j]) {
      if j < i { ChunksDisjoint(cs, j, i); } else { ChunksDisjoint(cs, i, j); }
    }
    CommittedAvoids(accounts, cs, failing, |cs|, u);
    UncreditedUnchanged(accounts, Committed(accounts, cs, failing, |cs|), u);
  }

  /** When every chunk commits, the committed entries are all the chunks, in order. */
  lemma {:induction false} CommittedAll(accounts: map<string, Account>, chunks: seq<seq<Payout>>,
                                        failing: set<nat>, n: nat)
    requires n <= |chunks|
    requires forall j :: 0 <= j < n ==> ChunkCommits(accounts, chunks, j, failing)
    ensures Committed(accounts, chunks, failing, n) == Flatten(chunks[..n])
  {
    if n == 0 {
      assert chunks[..0] == [];
    } else {
      CommittedAll(accounts, chunks, failing, n - 1);
      FlattenSnoc(chunks[..n]);
      assert chunks[..n][..n - 1] == chunks[..n - 1];
    }
  }

  lemma {:induction false} PayoutTxnsAmounts(ps: seq<Payout>, run: PayoutRun)
    ensures SumAmounts(PayoutTxns(ps, run)) == Total(ps)
    decreases |ps|
  {
    if ps != [] {
      var ps' := ps[..|ps| - 1];
      PayoutTxnsAmounts(ps', run);
      assert PayoutTxns(ps, run)[..|ps| - 1] == PayoutTxns(ps', run);
    }
  }

  /** When no chunk fails and every paid user has a document, the committed entries are the whole merged list. */
  lemma NothingFailsCommitsAll(accounts: map<string, Account>, payouts: seq<Payout>)
    requires Users(payouts) <= accounts.Keys
    ensures var cs := Chunk(Merge(payouts));
            Committed(accounts, cs, {}, |cs|) == Merge(payouts)
  {
    var cs := Chunk(Merge(payouts));
    MergeUsers(payouts);
    forall j | 0 <= j < |cs| ensures ChunkCommits(accounts, cs, j, {}) {
      ChunkUsersInFlatten(cs, j);
      forall k | 0 <= k < |cs[j]| ensures cs[j][k].userId in accounts {
        assert cs[j][k].userId in Users(cs[j]);
      }
    }
    CommittedAll(accounts, cs, {}, |cs|);
    assert cs[..|cs|] == cs;
  }

  /**
   * Conservation when nothing fails and every paid user has a document:
   * the records are exactly one per user (the merged list), their amounts
   * add up to the total of all payout entries, and every account rises by
   * that user's summed payout and deposit.
   */
  lemma FullDistribution(accounts: map<string, Account>, payouts: seq<Payout>, run: PayoutRun, u: string)
    requires Users(payouts) <= accounts.Keys
    ensures var cs := Chunk(Merge(payouts));
            var done := Committed(accounts, cs, {}, |cs|);
            && done == Merge(payouts)
            && DistinctUsers(done)
            && SumAmounts(PayoutTxns(done, run)) == Total(payouts)
            && CreditAll(accounts, done).Keys == accounts.Keys
            && (u in accounts ==>
                  CreditAll(accounts, done)[u] == Account(accounts[u].balance + UserTotal(payouts, u),
                                                          accounts[u].totalDeposits + UserDeposits(payouts, u)))
  {
    var merged := Merge(payouts);
    NothingFailsCommitsAll(accounts, payouts);
    MergeUsers(payouts);
    MergeSums(payouts, u);
    PayoutTxnsAmounts(merged, run);
    CreditAllEffect(accounts, merged, u);
  }

  /**
   * One iteration of the chunk loop: a committing chunk adds its records
   * and its increments after those of the earlier chunks; a failing one
   * adds nothing.
   */
  lemma CommitStep(accounts: map<string, Account>, chunks: seq<seq<Payout>>, failing: set<nat>, i: nat, run: PayoutRun)
    requires i < |chunks|
    ensures var done := Committed(accounts, chunks, failing, i);
            var next := Committed(accounts, chunks, failing, i + 1);
            && (ChunkCommits(accounts, chunks, i, failing) ==>
                  && PayoutTxns(next, run) == PayoutTxns(done, run) + PayoutTxns(chunks[i], run)
                  && CreditAll(accounts, next) == CreditAll(CreditAll(accounts, done), chunks[i]))
            && (!ChunkCommits(accounts, chunks, i, failing) ==> next == done)
  {
    var done := Committed(accounts, chunks, failing, i);
    CommittedStep(accounts, chunks, failing, i);
    PayoutTxnsConcat(done, chunks[i], run);
    CreditAllConcat(accounts, done, chunks[i]);
  }

  /**
   * The model of `payUsersTransactions`: merge the payouts by user, split
   * them into chunks of 250, and for each chunk in turn either commit it
   * whole (one payout record per entry, then one increment per entry) or,
   * when it fails, skip it and carry on with the next chunk.
   * `failing` names the chunks whose transaction the stores abort.
   */
  method PayUsersTransactions(l: Ledger, payouts: seq<Payout>, contractId: string, answerId: Option<string>,
                              payoutStartTime: int, failing: set<nat>)
    modifies l
    ensures var chunks := Chunk(Merge(payouts));
            var done := Committed(old(l.accounts), chunks, failing, |chunks|);
            && l.txns == old(l.txns) + PayoutTxns(done, PayoutRun(contractId, answerId, payoutStartTime))
            && l.accounts == CreditAll(old(l.accounts), done)
  {
    var mergedPayouts := Merge(payouts);
    var payoutChunks := Chunk(mergedPayouts);
    var run := PayoutRun(contractId, answerId, payoutStartTime);
    ghost var accounts0, txns0 := l.accounts, l.txns;
    for i := 0 to |payoutChunks|
      invariant l.txns == txns0 + PayoutTxns(Committed(accounts0, payoutChunks, failing, i), run)
      invariant l.accounts == CreditAll(accounts0, Committed(accounts0, payoutChunks, failing, i))
      invariant l.accounts.Keys == accounts0.Keys
    {
      var payoutChunk := payoutChunks[i];
      ghost var done := Committed(accounts0, payoutChunks, failing, i);
      ghost var next := Committed(accounts0, payoutChunks, failing, i + 1);
      CommitStep(accounts0, payoutChunks, failing, i, run);
      CreditAllEffect(accounts0, next, "");
      var commits := i !in failing && forall k | 0 <= k < |payoutChunk| :: payoutChunk[k].userId in l.accounts;
      assert commits == ChunkCommits(accounts0, payoutChunks, i, failing);
      if commits {
        PayChunk(l, payoutChunk, run);
        AppendAssoc(txns0, PayoutTxns(done, run), PayoutTxns(payoutChunk, run));
        assert l.accounts == CreditAll(accounts0, next);
      } else {
        assert next == done;
      }
    }
  }

  /** Appending in two steps is appending the concatenation. */
  lemma AppendAssoc(a: seq<Txn>, b: seq<Txn>, c: seq<Txn>)
    ensures (a + b) + c == a + (b + c)
  {
  }

  /**
   * One chunk's transaction: the payout records of its entries, then one
   * balance and deposit increment per entry. Every user must have a document.
   */
  method PayChunk(l: Ledger, payoutChunk: seq<Payout>, run: PayoutRun)
    requires forall k :: 0 <= k < |payoutChunk| ==> payoutChunk[k].userId in l.accounts
    modifies l
    ensures l.txns == old(l.txns) + PayoutTxns(payoutChunk, run)
    ensures l.accounts == CreditAll(old(l.accounts), payoutChunk)
  {
    l.InsertTxns(PayoutTxns(payoutChunk, run));
    ghost var before := l.accounts;
    for j := 0 to |payoutChunk|
      invariant l.accounts == CreditAll(before, payoutChunk[..j])
      invariant l.accounts.Keys == before.Keys
      invariant l.txns == old(l.txns) + PayoutTxns(payoutChunk, run)
    {
      var p := payoutChunk[j];
      l.Increment(p.userId, p.payout, DepositOf(p));
      assert payoutChunk[..j + 1][..j] == payoutChunk[..j];
    }
    assert payoutChunk[..|payoutChunk|] == payoutChunk;
  }

  /** A `UNIQUE_BETTOR_BONUS` record granted on market `contractId`. */
  predicate IsBonusFor(t: Txn, contractId: string)
  {
    t.category == UniqueBettorBonus && t.data.BonusData? && t.data.contractId == contractId
  }

  /** The bonus records of a market, in ledger order. */
  function BonusRecords(txns: seq<Txn>, contractId: string): seq<Txn>
  {
    if txns == [] then []
    else
      var last := txns[|txns| - 1];
      BonusRecords(txns[..|txns| - 1], contractId) + (if IsBonusFor(last, contractId) then [last] else [])
  }

  /**
   * The selection is exactly the filter: every selected row is a bonus of
   * the market taken from the ledger, and each bonus of the market is
   * selected as many times as it occurs in the ledger (records carry no
   * id, so equal bonuses must all be kept for their sum to be right).
   */
  lemma {:induction false} BonusRecordsSelection(txns: seq<Txn>, contractId: string)
    ensures var r := BonusRecords(txns, contractId);
            && (forall k :: 0 <= k < |r| ==> IsBonusFor(r[k], contractId) && r[k] in txns)
            && (forall i :: 0 <= i < |txns| && IsBonusFor(txns[i], contractId) ==> txns[i] in r)
            && (forall t :: multiset(r)[t] == if IsBonusFor(t, contractId) then multiset(txns)[t] else 0)
    decreases |txns|
  {
    if txns != [] {
      var prefix := txns[..|txns| - 1];
      var last := txns[|txns| - 1];
      BonusRecordsSelection(prefix, contractId);
      assert txns == prefix + [last];
      assert forall i :: 0 <= i < |txns| - 1 ==> txns[i] == prefix[i];
    }
  }

  /** `sumBy(bonuses, txn => txn.amount)` over the market's bonus records. */
  function BonusTotal(txns: seq<Txn>, contractId: string): int
  {
    SumAmounts(BonusRecords(txns, contractId))
  }

  /** The bonus sum of a ledger is the bonus sum of its earlier part plus that of what was appended. */
  lemma {:induction false} BonusTotalConcat(a: seq<Txn>, b: seq<Txn>, contractId: string)
    ensures BonusRecords(a + b, contractId) == BonusRecords(a, contractId) + BonusRecords(b, contractId)
    ensures BonusTotal(a + b, contractId) == BonusTotal(a, contractId) + BonusTotal(b, contractId)
    decreases |b|
  {
    if b == [] {
      assert a + b == a;
    } else {
      var b' := b[..|b| - 1];
      var last := b[|b| - 1];
      assert (a + b)[..|a + b| - 1] == a + b' && (a + b)[|a + b| - 1] == last;
      BonusTotalConcat(a, b', contractId);
      var extra := if IsBonusFor(last, contractId) then [last] else [];
      assert BonusRecords(a + b, contractId) == BonusRecords(a + b', contractId) + extra;
      assert BonusRecords(b, contractId) == BonusRecords(b', contractId) + extra;
      AppendAssoc(BonusRecords(a, contractId), BonusRecords(b', contractId), extra);
    }
    SumAmountsConcat(BonusRecords(a, contractId), BonusRecords(b, contractId));
  }

  /** Payout records are never counted as bonuses. */
  lemma {:induction false} PayoutsAreNotBonuses(ps: seq<Payout>, run: PayoutRun, contractId: string)
    ensures BonusRecords(PayoutTxns(ps, run), contractId) == []
    ensures BonusTotal(PayoutTxns(ps, run), contractId) == 0
    decreases |ps|
  {
    if ps != [] {
      var ps' := ps[..|ps| - 1];
      assert PayoutTxns(ps, run)[..|ps| - 1] == PayoutTxns(ps', run);
      PayoutsAreNotBonuses(ps', run, contractId);
    }
  }

  /** The compensating record: the bonus total moves from the creator (a user) to the house (a bank). */
  function ClawbackTxn(creatorId: string, houseId: string, contractId: string, amount: int): Txn
  {
    Txn(creatorId, UserAccount, houseId, BankAccount, amount, ManaToken,
        CancelUniqueBettorBonus, BonusData(contractId), NoDescription)
  }

  /**
   * The bonus query of the clawback, reduced to what decides its outcome:
   * the positional placeholder the contract id is compared with, and the
   * values bound to the placeholders.
   */
  datatype BonusQuery = BonusQuery(placeholder: nat, params: seq<string>)

  /** A `$n` placeholder takes the n-th bound value (counting from 1); otherwise formatting the query fails. */
  function BindPlaceholder(n: nat, params: seq<string>): Option<string>
  {
    if 1 <= n <= |params| then Some(params[n - 1]) else None
  }

  /** The query as written: `data->>'contractId' = $2` with the one value `[contract.id]`. */
  function AsWrittenBonusQuery(contractId: string): BonusQuery
  {
    BonusQuery(2, [contractId])
  }

  /** The evidently intended query: `data->>'contractId' = $1` with `[contract.id]`. */
  function CorrectedBonusQuery(contractId: string): BonusQuery
  {
    BonusQuery(1, [contractId])
  }

  /** Runs the bonus query on the ledger; None when it cannot be formatted. */
  function SelectBonusRecords(txns: seq<Txn>, q: BonusQuery): Option<seq<Txn>>
  {
    match BindPlaceholder(q.placeholder, q.params)
    case None => None
    case Some(contractId) => Some(BonusRecords(txns, contractId))
  }

  /** The clawback record built from the query's rows; None when the query fails (the transaction throws). */
  function ClawbackRecord(txns: seq<Txn>, q: BonusQuery, creatorId: string, houseId: string, contractId: string): Option<Txn>
  {
    match SelectBonusRecords(txns, q)
    case None => None
    case Some(rows) => Some(ClawbackTxn(creatorId, houseId, contractId, SumAmounts(rows)))
  }

  /** As written, the clawback query never runs: no compensating record is ever produced. */
  lemma AsWrittenClawbackFails(txns: seq<Txn>, creatorId: string, houseId: string, contractId: string)
    ensures SelectBonusRecords(txns, AsWrittenBonusQuery(contractId)) == None
    ensures ClawbackRecord(txns, AsWrittenBonusQuery(contractId), creatorId, houseId, contractId) == None
  {
  }

  /**
   * With the placeholder corrected, the query selects exactly the market's
   * bonus records and the clawback moves their summed amount from the
   * creator to the house.
   */
  lemma CorrectedClawback(txns: seq<Txn>, creatorId: string, houseId: string, contractId: string)
    ensures SelectBonusRecords(txns, CorrectedBonusQuery(contractId)) == Some(BonusRecords(txns, contractId))
    ensures var r := ClawbackRecord(txns, CorrectedBonusQuery(contractId), creatorId, houseId, contractId);
            && r.Some?
            && r.value.fromId == creatorId && r.value.fromType == UserAccount
            && r.value.toId == houseId && r.value.toType == BankAccount
            && r.value.category == CancelUniqueBettorBonus
            && r.value.amount == BonusTotal(txns, contractId)
  {
  }

  /**
   * The compensating record is not itself a bonus: the market's bonus sum is
   * the same after the clawback, so the ledger keeps the full history.
   */
  lemma ClawbackKeepsBonusHistory(txns: seq<Txn>, creatorId: string, houseId: string, contractId: string, amount: int)
    ensures BonusRecords(txns + [ClawbackTxn(creatorId, houseId, contractId, amount)], contractId) == BonusRecords(txns, contractId)
    ensures BonusTotal(txns + [ClawbackTxn(creatorId, houseId, contractId, amount)], contractId) == BonusTotal(txns, contractId)
  {
    var t := ClawbackTxn(creatorId, houseId, contractId, amount);
    assert (txns + [t])[..|txns|] == txns;
  }

  /**
   * The model of `undoUniqueBettorRewardsIfCancelResolution`, with the query
   * placeholder corrected: on `CANCEL`, one `CANCEL_UNIQUE_BETTOR_BONUS`
   * record for the sum of the market's bonus records, run through
   * `runTxn` so that the creator's balance pays it; otherwise nothing.
   */
  method UndoUniqueBettorRewardsIfCancelResolution(l: Ledger, contractId: string, creatorId: string,
                                                   outcome: string, houseId: string)
    modifies l
    ensures outcome != "CANCEL" ==> l.txns == old(l.txns) && l.accounts == old(l.accounts)
    ensures outcome == "CANCEL" ==>
      var t := ClawbackTxn(creatorId, houseId, contractId, BonusTotal(old(l.txns), contractId));
      l.txns == old(l.txns) + [t] && l.accounts == Transfer(old(l.accounts), t)
  {
    if outcome == "CANCEL" {
      var bonusTxn := ClawbackRecord(l.txns, CorrectedBonusQuery(contractId), creatorId, houseId, contractId);
      CorrectedClawback(l.txns, creatorId, houseId, contractId);
      l.RunTxn(bonusTxn.value);
    }
  }

  /**
   * Running the clawback record debits the creator by the clawed-back
   * amount and changes no other user document: the house is a bank
   * account, not a user.
   */
  lemma ClawbackDebitsCreator(accounts: map<string, Account>, creatorId: string, houseId: string,
                              contractId: string, amount: int, u: string)
    ensures Transfer(accounts, ClawbackTxn(creatorId, houseId, contractId, amount)).Keys == accounts.Keys
    ensures u in accounts ==>
      Transfer(accounts, ClawbackTxn(creatorId, houseId, contractId, amount))[u]
        == Account(accounts[u].balance - (if u == creatorId then amount else 0), accounts[u].totalDeposits)
  {
    TransferEffect(accounts, ClawbackTxn(creatorId, houseId, contractId, amount), u);
  }
}
